=== FILE: README.md ===
# Huffman file codec

This project models the Huffman codec of `file_compression_tool.cpp` in
Dafny and proves properties of the model. It covers the whole codec once
files are treated as byte sequences:

- the frequency table: one count per byte value that occurs;
- the tree builder, `buildHuffmanTree`, with its `Compare` order;
- code derivation, `generateCodes`;
- the bit-string encoder: concatenation, zero padding, packing eight bits
  per byte with the first bit most significant;
- the container header: one record `<symbol byte><decimal count>\n` per
  symbol, then `END\n`;
- the tree-walk decoder of `decompressFile`.

Modules follow the program's structure:

| module | file | what it holds |
|---|---|---|
| `Results` | `results.dfy` | `Option`, `Result` and the two decoding errors |
| `Bits` | `bits.dfy` | bytes, bit strings, padding, packing and unpacking |
| `Frequency` | `frequency.dfy` | the frequency table and sums over it |
| `HuffmanTree` | `tree.dfy` | trees, the priority queue and the merge loop |
| `Encoding` | `codes.dfy` | code derivation and the bit-string encoder |
| `Decoder` | `decode.dfy` | the tree walk and decoding of a whole bit stream |
| `Decimal` | `decimal.dfy` | decimal numerals as `operator<<` writes them |
| `Header` | `header.dfy` | the header writer and a reader that inverts it |
| `Container` | `container.dfy` | whole-file compression, decompression and the round trip |
| `AsWritten` | `as_written.dfy` | the parts of the source that misbehave, modelled as written |

## Design decisions

The source has several defects. The model fixes each of them in the way
described here. Module `AsWritten` models the original behaviour next to
the fix (see "Findings").

- **Symbols.** Symbols are unsigned bytes, 0..255. The source uses `char`,
  which is signed on most platforms.
- **Ties.** `Compare` orders nodes by weight only, so equal weights come
  out in an order fixed by the heap internals and the hash map's iteration
  order. The model's queue is a strictly sorted sequence ordered by weight,
  then by a rank:
  - a leaf's rank is its symbol;
  - a merged node's rank is 256 plus its creation number.

  This order never contradicts `Compare` (`BeforeRefinesCompare`). The
  table is enumerated in ascending symbol order, and
  `IterationOrderIrrelevant` proves that any other enumeration gives the
  same queue.
- **Empty input.** The source calls `top()` on an empty heap, which is
  undefined. The model builds no tree and writes an empty header, a bit
  count of 0 and no payload.
- **A lone symbol.** When the table has one symbol, the root is a leaf.
  `generateCodes` then gives that symbol the empty code. Given any payload
  byte the decoder would follow a null child; the encoder writes none for
  such an input, so its symbols are silently lost. The model gives the lone symbol the code `0`,
  and its decoder emits that symbol once per `0` bit (`Codes`, `DecodeBits`).
- **Padding.** The container records how many bits are meaningful. After
  `END\n` comes a line `<decimal bit count>\n`, then the packed bytes. The
  decoder decodes only that many bits and stops at the root. It rejects a
  payload whose length does not match the bit count, and a bit stream that
  ends partway through a code word.
- **Header reader.** `Header.ReadRecords` reads exactly one raw byte per
  record, then digits, then a newline, until `END\n`. This makes it the
  inverse of the writer for every symbol, whitespace included. Like
  `freqMap[ch] = freq`, a later record for the same symbol overwrites an
  earlier one.

## Model

| member | source | states |
|---|---|---|
| Frequency.Frequencies | file_compression_tool.cpp:70-74 | a byte value is in the table exactly when it occurs in the input, and its count is its number of occurrences |
| Frequency.FrequenciesEmpty | file_compression_tool.cpp:70-74 | the table is empty exactly when the input is |
| Frequency.TotalOfFrequencies | file_compression_tool.cpp:70-74 | the counts add up to the input length |
| Frequency.AscendingKeys | file_compression_tool.cpp:32-34 | the enumeration used for the table lists exactly its symbols, strictly increasing |
| Frequency.AscendingKeysMultiset | file_compression_tool.cpp:32-34 | that enumeration lists each symbol of the table exactly once |
| HuffmanTree.BeforeRefinesCompare | file_compression_tool.cpp:24-28 | the queue order puts lighter entries first and never puts a heavier one first; it is asymmetric, transitive, and orders any two entries that differ in weight or rank, so it is a strict total order on (weight, rank) pairs |
| HuffmanTree.InternalsCount | file_compression_tool.cpp:36-43 | a tree with n leaves took n - 1 merges to build |
| HuffmanTree.Insert | file_compression_tool.cpp:42 | a push adds exactly one entry and keeps all the others (a permutation of queue plus entry) |
| HuffmanTree.InsertSorted | file_compression_tool.cpp:42 | a push with a fresh rank keeps the queue in order |
| HuffmanTree.InsertTotals | file_compression_tool.cpp:42 | a push adds the entry's weight and leaves to the queue's totals |
| HuffmanTree.Merge | file_compression_tool.cpp:36-43 | one loop iteration leaves one entry fewer: the two front entries are replaced by their merge, the first extracted going left |
| HuffmanTree.MergeSorted | file_compression_tool.cpp:36-43 | a merge keeps the queue in order, with ranks below the next creation number |
| HuffmanTree.MergeTakesLightest | file_compression_tool.cpp:36-41 | on an ordered queue the two extracted entries weigh no more than any entry left behind |
| HuffmanTree.MergeWeight | file_compression_tool.cpp:39-42 | a merge keeps the queue's total weight |
| HuffmanTree.MergeSyms | file_compression_tool.cpp:39-42 | a merge keeps the queue's leaves |
| HuffmanTree.MergeConsistent | file_compression_tool.cpp:39-41 | a merged node weighs the sum of its children, so a queue of consistent trees stays consistent |
| HuffmanTree.Build | file_compression_tool.cpp:36-45 | the merge loop run to the end: from two or more entries it ends at an internal node; its root's weight, leaves and consistency are stated by BuildWeight, BuildSyms and BuildConsistent, and each step by Merge and MergeTakesLightest |
| HuffmanTree.BuildWeight | file_compression_tool.cpp:36-45 | the final root weighs as much as the whole initial queue |
| HuffmanTree.BuildSyms | file_compression_tool.cpp:36-45 | the final root's leaves are the leaves of the whole initial queue |
| HuffmanTree.BuildConsistent | file_compression_tool.cpp:36-45 | every node of the final root weighs the sum of its children and every leaf carries its table count |
| HuffmanTree.QueueOf | file_compression_tool.cpp:32-34 | one push per enumerated symbol gives a queue of that many entries; its contents and order are stated by QueueOfLeaves, QueueOfSorted and IterationOrderIrrelevant |
| HuffmanTree.QueueOfLeaves | file_compression_tool.cpp:32-34 | the initial queue holds exactly one leaf per enumerated symbol, carrying its count |
| HuffmanTree.QueueOfSorted | file_compression_tool.cpp:32-34 | pushing distinct symbols gives an ordered queue |
| HuffmanTree.QueueOfWeight | file_compression_tool.cpp:32-34 | the initial queue weighs the sum of the enumerated counts |
| HuffmanTree.QueueOfSyms | file_compression_tool.cpp:32-34 | the initial queue's leaves are the enumerated symbols |
| HuffmanTree.SortedUnique | file_compression_tool.cpp:31 | an ordered queue is determined by its set of entries |
| HuffmanTree.IterationOrderIrrelevant | file_compression_tool.cpp:32-34 | the initial queue is the same for every enumeration order of the table |
| HuffmanTree.InitialQueueSorted | file_compression_tool.cpp:32-34 | the queue the builder starts from is ordered |
| HuffmanTree.BuildTree | file_compression_tool.cpp:30-46 | the root's leaves are the table's symbols, each once; its weight is the total count; every node is consistent with the table; it has one internal node fewer than there are symbols |
| HuffmanTree.BuildTreeUniqueSyms | file_compression_tool.cpp:30-46 | the built tree holds every symbol of the table at exactly one leaf |
| Encoding.CodeMap | file_compression_tool.cpp:48-57 | a code is assigned to exactly the symbols at the leaves |
| Encoding.CodeMapLeafPaths | file_compression_tool.cpp:48-57 | each code word is the prefix followed by the path (0 left, 1 right) to a leaf holding that symbol |
| Encoding.Codes | file_compression_tool.cpp:48-57 | every symbol of the tree has a non-empty code word; in a tree with two or more leaves, each code word leads from the root to that symbol's leaf |
| Encoding.LeafPathsIncomparable | file_compression_tool.cpp:51-56 | a path that ends at a leaf is not a proper prefix of another such path |
| Encoding.CodesPrefixFree | file_compression_tool.cpp:48-57 | no code word is a prefix of another symbol's code word |
| Encoding.LeafAtSubtree | file_compression_tool.cpp:50-56 | a path ends at a leaf exactly when the subtree it reaches is a leaf, and the symbol found is that leaf's |
| Encoding.SubtreeStep | file_compression_tool.cpp:55-56 | one more bit from an internal node reaches its left child on 0 and its right child on 1 |
| Encoding.SubtreeSmaller | file_compression_tool.cpp:55-56 | a non-empty path reaches a strictly smaller subtree, so only the empty path leads back to the root |
| Encoding.LeafAtInSyms | file_compression_tool.cpp:50-53 | every leaf a path reaches carries one of the tree's symbols |
| Encoding.CodeMapOfLeaf | file_compression_tool.cpp:48-57 | when every symbol occurs once, the code recorded for a leaf's symbol is exactly the path to that leaf |
| Encoding.Encode | file_compression_tool.cpp:88-91 | the bit string starts with the first byte's code word and is empty for an empty input; EncodeAppend, EncodedLength and Decoder.DecodeIffEncoded state the rest |
| Encoding.EncodeAppend | file_compression_tool.cpp:89-91 | reading one more byte appends its code word to the bit string |
| Encoding.EncodeLengthAtLeast | file_compression_tool.cpp:89-91 | with non-empty code words the bit string has at least one bit per input byte |
| Encoding.EncodedLength | file_compression_tool.cpp:88-91 | the bit string's length is the sum over symbols of count times code length |
| Bits.PadLengthStep | file_compression_tool.cpp:93-95 | each loop iteration brings the length one bit closer to a byte boundary |
| Bits.Pad | file_compression_tool.cpp:93-95 | padding appends only zeros, fewer than eight, and reaches a multiple of eight |
| Bits.PackByte | file_compression_tool.cpp:98-99 | a byte's eight bits, most significant first, are the eight bits it was built from |
| Bits.UnpackByte | file_compression_tool.cpp:192-194 | bit i of the unpacked byte is `test(7 - i)` |
| Bits.UnpackPackByte | file_compression_tool.cpp:192-194 | testing bits 7 down to 0 of a packed byte gives back the eight bits packed |
| Bits.PackUnpackByte | file_compression_tool.cpp:98-99 | packing the bits read from a byte gives back that byte |
| Bits.Pack | file_compression_tool.cpp:97-100 | byte j holds bits 8j to 8j+7, most significant first, and there is one byte per eight bits |
| Bits.UnpackPack | file_compression_tool.cpp:191-194 | reading the packed bytes back bit by bit gives the packed bit string |
| Bits.PackUnpack | file_compression_tool.cpp:97-100 | packing the bits read from any bytes gives back those bytes |
| Bits.Unpack | file_compression_tool.cpp:191-194 | reading bytes bit by bit gives eight bits per byte; UnpackPack and PackUnpack show it inverts packing |
| Bits.PaddedPayload | file_compression_tool.cpp:93-100 | the payload has ceil(bits/8) bytes and reading it back starts with the original bits |
| Decoder.Walk | file_compression_tool.cpp:189-200 | the walk always stands at an internal node and emits at most one symbol per bit |
| Decoder.WalkPath | file_compression_tool.cpp:193-198 | following a path to a leaf emits that leaf's symbol and resets to the root |
| Decoder.WalkEncoded | file_compression_tool.cpp:189-199 | walking the code words of s emits exactly s and returns to the root, whatever follows |
| Decoder.WalkEncodedExactly | file_compression_tool.cpp:189-199 | walking a whole encoded stream emits it and stops at the root |
| Decoder.DecodeBits | file_compression_tool.cpp:189-200 | an accepted stream decodes by the tree walk and ends at the root; a lone-symbol tree gives one symbol per bit |
| Decoder.DecodeEncoded | file_compression_tool.cpp:189-200 | decoding inverts encoding for every tree and every input over its symbols |
| Decoder.CodesAreLeafPaths | file_compression_tool.cpp:48-57 | on a tree with two or more leaves and unique symbols, every leaf's path is its symbol's code word |
| Decoder.WalkInverts | file_compression_tool.cpp:189-200 | a walk that ends back at the root has read only code words, and re-encoding what it emitted gives back the path and the bits it read |
| Decoder.DecodeOnlyEncoded | file_compression_tool.cpp:189-200 | on a tree with unique symbols, every stream the decoder accepts is the encoding of what it decodes to |
| Decoder.DecodeIffEncoded | file_compression_tool.cpp:189-200 | on a tree with unique symbols, decoding yields s if and only if the bits are the encoding of s |
| Decimal.Numeral | file_compression_tool.cpp:84 | a count is written as digits with no leading zero |
| Decimal.NumeralValue | file_compression_tool.cpp:84 | the digits written denote the count |
| Decimal.DigitRunOf | file_compression_tool.cpp:182 | a digit run ending at a non-digit is read in full |
| Decimal.ReadNumberLine | file_compression_tool.cpp:182 | a number line is read up to and including its newline, and the rest is left unread |
| Decimal.ReadNumberLineOf | file_compression_tool.cpp:182 | reading a written number line gives back the number and the bytes after it |
| Header.Record | file_compression_tool.cpp:84 | a record is the symbol byte, then at least one digit, then the rest |
| Header.WriteHeader | file_compression_tool.cpp:83-86 | the header has at least three bytes per record and ends with `END\n`; ReadHeaderOf shows the reader recovers the table from it |
| Header.RecordIsNotEnd | file_compression_tool.cpp:84-86 | no record can be mistaken for `END\n` |
| Header.ReadRecordsOf | file_compression_tool.cpp:179-185 | reading written records applies each to the table and stops right after `END\n` |
| Header.ReadRecords | file_compression_tool.cpp:179-185 | reading records keeps every symbol already in the table, leaves at least the terminator's length behind it, and fails only with MalformedContainer; ReadRecordsOf and NoTerminatorRejected state what it reads |
| Header.ReadHeader | file_compression_tool.cpp:179-185 | what is left after the header is the tail of the file, with `END\n` right in front of it; a failure is always MalformedContainer |
| Header.ReadRecordsRest | file_compression_tool.cpp:182-185 | whatever the record reader leaves over is a tail of its input preceded by `END\n` |
| Header.NoTerminatorRejected | file_compression_tool.cpp:182-185 | a header with no `END\n` anywhere in it is rejected as malformed, whatever records it holds |
| Header.OccursInSuffix | file_compression_tool.cpp:182-185 | a terminator in a tail of the data is a terminator in the data |
| Header.ReadHeaderOf | file_compression_tool.cpp:83-86 | for every enumeration order the header reads back as the same table, and every byte after `END\n` is left as payload |
| Container.EncodedBits | file_compression_tool.cpp:88-91 | the bit string has at least one bit per input byte |
| Container.InputHasCodes | file_compression_tool.cpp:78-81 | every input byte has a code in the tree built from the input's own table |
| Container.Compress | file_compression_tool.cpp:59-101 | a container holds at least three bytes per distinct symbol, the terminator and a bit-count line; RoundTrip and CompressLayout state what it holds |
| Container.Decompress | file_compression_tool.cpp:168-201 | a file whose header does not parse is MalformedContainer, and EmptyAlphabet arises only from an empty table; RoundTrip, NoTerminatorDecompress, DecompressLengthMismatch and TruncatedContainer state the rest |
| Container.CompressEmpty | file_compression_tool.cpp:59-101 | empty input is written as the bare terminator followed by a bit count of 0 and no payload |
| Container.NoTerminatorDecompress | file_compression_tool.cpp:179-185 | a file with no `END\n` in it is rejected as malformed |
| Container.CompressLayout | file_compression_tool.cpp:83-100 | a container reads back as its table, then its bit count, then its payload |
| Container.DecompressWellFormed | file_compression_tool.cpp:187-200 | unfolds Decompress on a container whose header, bit count and payload length parse: an empty table decodes only zero bits, and otherwise the first bit-count bits are decoded with the table's tree; it is the helper for RoundTrip |
| Container.RoundTrip | file_compression_tool.cpp:179-200 | decompressing a compressed file gives back the original bytes, for every input |
| Container.DecompressLengthMismatch | file_compression_tool.cpp:191 | the model's container check, which the source lacks: a payload whose length does not match the bit count is rejected |
| Container.MisfitPayloadRejected | file_compression_tool.cpp:191 | the model's container check: a written header and bit count followed by a payload of the wrong length is rejected as malformed |
| Container.TruncatedContainer | file_compression_tool.cpp:191 | a container that lost its last payload byte is rejected rather than decoded short, whatever its table, the order the table was written in, and its bit count |
| AsWritten.DecodePadded | file_compression_tool.cpp:189-200 | the source's decoding loop emits at most eight symbols per payload byte |
| AsWritten.PaddedDecodeExtends | file_compression_tool.cpp:189-200 | with the padding decoded too, the original input still comes out first |
| AsWritten.PaddedABDecodes | file_compression_tool.cpp:93-100 | the source's loop decodes the padded payload of "ab" over its tree and codes as "abaaaaaa" |
| AsWritten.PaddingCounterexample | file_compression_tool.cpp:93-95 | end to end from the input "ab": its frequency table builds a two-leaf tree, and the padded, packed encoding decodes as "abaaaaaa" |
| AsWritten.LoneSymbolCodes | file_compression_tool.cpp:51-53 | a one-symbol table gives a single leaf, and generateCodes gives it the empty code |
| AsWritten.LoneSymbolAsWritten | file_compression_tool.cpp:88-91 | with that code, any input of one repeated byte encodes to no bits at all |
| AsWritten.SkipSpace | file_compression_tool.cpp:182 | formatted extraction skips exactly the leading whitespace |
| AsWritten.ExtractChar | file_compression_tool.cpp:182 | `>> ch` yields the first non-whitespace byte at or after the position and ends just past it; it fails exactly when only whitespace is left, and a failed stream stays failed |
| AsWritten.ExtractInt | file_compression_tool.cpp:182 | `>> freq` only moves forward, advances on success and yields a value in the range of a 32-bit int; ExtractIntOfNumeral states the value read |
| AsWritten.ExtractIntOfNumeral | file_compression_tool.cpp:182 | a count written in decimal and followed by a newline is read back as that count, stopping at the newline |
| AsWritten.ReadRecordsAsWritten | file_compression_tool.cpp:182-184 | the record loop only moves forward through the data and never changes it |
| AsWritten.HeaderLoopFails | file_compression_tool.cpp:182-184 | the record loop always ends with the failbit set |
| AsWritten.Ignore | file_compression_tool.cpp:185 | `ignore` does nothing on a failed stream; otherwise it skips at most count bytes, none of them the delimiter except the last, and stops at the end of the data, after count bytes, or just past the delimiter |
| AsWritten.GetAll | file_compression_tool.cpp:191 | the payload loop reads every byte that is left, or nothing on a failed stream |
| AsWritten.PayloadAsWritten | file_compression_tool.cpp:179-191 | the bytes handed to the decoding loop are never more than the container holds; DecompressAsWrittenIsEmpty shows they are none |
| AsWritten.DecompressAsWrittenIsEmpty | file_compression_tool.cpp:179-200 | for every container, the payload loop reads no byte, so whenever the records read give a tree with children the source's decompressFile writes nothing |
| AsWritten.EmptyTableFromSpaceRecord | file_compression_tool.cpp:182-184 | the container written for " ", " 1\nEND\n", leaves the record loop with an empty table |
| AsWritten.SpaceRecordMisread | file_compression_tool.cpp:182 | the record " 1\n" written for a space is read back as the symbol '1' |

## Left out

- Uploading to and downloading from S3 (file_compression_tool.cpp:103-166): network client and foreign SDK.
- `main` (file_compression_tool.cpp:203-234): argument checks, mode dispatch and removal of temporary files.
- Opening the files and the `runtime_error`s thrown when that fails (file_compression_tool.cpp:60-68, 169-177): I/O. Files are byte sequences here. Rewinding the input (lines 75-76) is implicit: the encoder reads the same sequence again.
- `shared_ptr` ownership and the heap internals of `std::priority_queue`: the tree is an immutable datatype and the queue is an ordered sequence.
- Huffman optimality (the exchange argument): the source does not claim it. Only the greedy step is stated (`MergeTakesLightest`).
- Frequency.Frequencies: counts are unbounded. The source's `int` count overflows after 2^31 - 1 occurrences of one byte, and so does the `int` it reads back.
- HuffmanTree.Build: it is defined for any non-empty queue. It models the source only on ordered queues. The builder only ever gives it one (`InitialQueueSorted`, `MergeSorted`).
- Container.Compress and Container.Decompress: their own contracts state only sizes and error kinds. What they compute is stated by the lemmas about them (`RoundTrip`, `NoTerminatorDecompress`, `DecompressLengthMismatch`, `TruncatedContainer`).
- AsWritten.DecodePadded: it needs a root with children. For a one-symbol table the source's loop follows a null child on the first payload byte, which is undefined behaviour and is not modelled.
- AsWritten.DecompressAsWrittenIsEmpty: covers only a tree with children. When the record loop leaves the table empty (the container written for " " or "\n", see EmptyTableFromSpaceRecord), line 187 builds from an empty map and line 45 calls `top()` on an empty heap before the payload loop runs. That undefined behaviour is not modelled.
- AsWritten.ReadRecordsAsWritten: does not state which records reach the table. A lemma that steps the loop over written records is not part of this model; the loop's defects are stated by HeaderLoopFails and SpaceRecordMisread.
- AsWritten.PayloadAsWritten: states only that the payload is no longer than the container, not that it is a tail of it; DecompressAsWrittenIsEmpty shows it is empty.
- AsWritten.ExtractIntOfNumeral: states the value read only for a number at the start of the data. Records further along are read after the symbol byte, and the model does not state that step.
- AsWritten.ExtractInt: its contract bounds the value read but does not pin it; the value is stated only for a numeral at the start of the data (ExtractIntOfNumeral). An overflowing number only sets the failbit. The value the stream stores in that case is not modelled, because the loop stops there anyway.

## Findings

| source | as written | input that shows it | evidently intended | confidence | as-written member | corrected member |
|---|---|---|---|---|---|---|
| file_compression_tool.cpp:93-95 | The zero padding is decoded like data, because the container does not record how many bits are meaningful. | The input "ab". Under the model's tie order (PaddingCounterexample) its codes are a=0 and b=1, so it encodes to 01, pads to 01000000, packs to the byte 64 and decodes as "abaaaaaa". The source's codes depend on the order in which the hash map lists the two symbols: with 'b' first they are b=0 and a=1, and the byte 128 decodes as "abbbbbbb". Either way six spurious symbols follow the input. | The output is exactly the input. | not executed | AsWritten.PaddingCounterexample | Container.RoundTrip |
| file_compression_tool.cpp:51-53 | When the table has one symbol, the root is a leaf and `generateCodes` gives it the empty code. Every input of that one symbol therefore encodes to no bits and no payload byte is written, so its symbols are silently lost. Given any payload byte, the decoder would follow a null child. | "aaa" | The lone symbol gets a one-bit code and its count is recoverable. | not executed | AsWritten.LoneSymbolAsWritten | Decoder.DecodeEncoded |
| file_compression_tool.cpp:182-191 | `while (inFile >> ch >> freq)` stops only when an extraction fails, and that leaves the failbit set. The `ignore` and every `get` after it then read nothing, so nothing is decoded. | The container written for "ab". At `END`, `>> freq` finds 'N' and fails, and the tree built from the records has children. When the loop reads no record at all (the container " 1\nEND\n" written for " "), line 45 first calls `top()` on an empty heap. | Read the records up to `END\n`, then decode the payload. | not executed | AsWritten.DecompressAsWrittenIsEmpty | Header.ReadHeaderOf |
| file_compression_tool.cpp:182 | `>> ch` skips whitespace, so a record written for a space, tab or newline is misread. | The input " " (one space) has the record " 1\n". It is read back as the symbol '1', and its count fails to parse. | The record's first byte is the symbol, whatever it is. | not executed | AsWritten.SpaceRecordMisread | Header.ReadRecordsOf |

=== FILE: as_written.dfy ===
/** The parts of file_compression_tool.cpp that do not do what the codec
    needs, modelled as written so that each defect can be exhibited. The
    rest of the model uses the corrected definitions instead. */
module AsWritten {
  import opened Bits
  import opened Frequency
  import opened HuffmanTree
  import opened Encoding
  import opened Decoder
  import Decimal
  import Header
  import Container

  // ---------------------------------------------------------------------
  // Padding: the decoding loop of file_compression_tool.cpp:190-200 walks
  // every bit of every payload byte, padding included.

  /** The symbols the source's decoding loop emits for a payload. */
  function DecodePadded(root: Tree, payload: seq<Byte>): (out: seq<Byte>)
    requires root.Node?
    ensures |out| <= 8 * |payload|
  {
    Walk(root, root, Unpack(payload)).output
  }

  /** The original input always comes out first, but the zero padding may
      decode to further symbols after it. */
  lemma PaddedDecodeExtends(root: Tree, input: seq<Byte>)
    requires root.Node?
    requires forall i :: 0 <= i < |input| ==> input[i] in Codes(root)
    ensures var out := DecodePadded(root, Pack(Pad(Encode(Codes(root), input))));
            |input| <= |out| && out[..|input|] == input
  {
    var bits := Encode(Codes(root), input);
    var padded := Pad(bits);
    UnpackPack(padded);
    var zeros := padded[|bits|..];
    assert padded == bits + zeros;
    WalkEncoded(root, Codes(root), input, zeros);
  }

  /** The table of the input "ab". */
  const TwoSymbols: Table := map[97 := 1, 98 := 1]

  /** The tree the builder makes for "ab": 'a' is extracted first and goes left. */
  const TwoLeaves: Tree := Node(Leaf(97, 1), Leaf(98, 1), 2)

  /** "ab" followed by six padding zeros. */
  const PaddedAB: BitString := [false, true, false, false, false, false, false, false]

  /** The table of "ab". */
  lemma FrequenciesAB()
    ensures Frequencies([97, 98]) == TwoSymbols
  {
    assert [97, 98][..1] == [97];
    assert [97][..0] == [];
  }

  lemma QueueAB()
    ensures Distinct([97, 98])
    ensures QueueOf(TwoSymbols, [97, 98]) == [Entry(Leaf(97, 1), 97), Entry(Leaf(98, 1), 98)]
  {
    assert [97, 98][1..] == [98];
    assert [98][1..] == [];
    assert QueueOf(TwoSymbols, [98]) == [Entry(Leaf(98, 1), 98)];
  }

  lemma BuildAB()
    ensures Build([Entry(Leaf(97, 1), 97), Entry(Leaf(98, 1), 98)], FirstMergeRank) == TwoLeaves
  {
    var q := [Entry(Leaf(97, 1), 97), Entry(Leaf(98, 1), 98)];
    assert q[2..] == [];
    assert Merge(q, FirstMergeRank) == [Entry(TwoLeaves, FirstMergeRank)];
  }

  lemma AscendingEnumerates(table: Table)
    ensures Enumerates(table, AscendingKeys(table, 0))
  {
    IncreasingIsDistinct(AscendingKeys(table, 0));
  }

  /** The builder's tree for "ab", whatever order the table is enumerated in. */
  lemma TwoSymbolsTree()
    ensures BuildTree(TwoSymbols) == TwoLeaves
  {
    var order := AscendingKeys(TwoSymbols, 0);
    AscendingEnumerates(TwoSymbols);
    QueueAB();
    assert Enumerates(TwoSymbols, [97, 98]);
    IterationOrderIrrelevant(TwoSymbols, order, [97, 98]);
    BuildAB();
  }

  /** The codes of "ab": 'a' is 0 and 'b' is 1. */
  lemma CodesAB()
    ensures Codes(TwoLeaves) == map[97 := [false], 98 := [true]]
  {
    assert [] + [false] == [false] && [] + [true] == [true];
    assert CodeMap(Leaf(97, 1), [false]) == map[97 := [false]];
    assert CodeMap(Leaf(98, 1), [true]) == map[98 := [true]];
    assert map[97 := [false]] + map[98 := [true]] == map[97 := [false], 98 := [true]];
  }

  lemma EncodeAB()
    ensures Encode(map[97 := [false], 98 := [true]], [97, 98]) == [false, true]
  {
    assert [97, 98][1..] == [98];
    assert [98][1..] == [];
  }

  lemma PadAB()
    ensures Pad([false, true]) == PaddedAB
  {
  }

  lemma PackAB()
    ensures Pack(PaddedAB) == [64]
    ensures Unpack([64]) == PaddedAB
  {
    assert PaddedAB[..8] == PaddedAB && PaddedAB[8..] == [];
    assert ToBits(64, 8) == PaddedAB;
    assert Pow2(8) == 256;
    ValueOfToBits(64, 8);
  }

  lemma WalkAB()
    ensures Walk(TwoLeaves, TwoLeaves, PaddedAB).output == [97, 98, 97, 97, 97, 97, 97, 97]
  {
  }

  /** The payload of "ab" decoded by the source's loop over the tree and
      codes of "ab" is "abaaaaaa". */
  lemma PaddedABDecodes()
    ensures DecodePadded(TwoLeaves, Pack(Pad(Encode(map[97 := [false], 98 := [true]], [97, 98]))))
         == [97, 98, 97, 97, 97, 97, 97, 97]
  {
    EncodeAB();
    PadAB();
    PackAB();
    WalkAB();
  }

  /** Compressing "ab" and decoding the payload as the source does yields
      "abaaaaaa": the six padding zeros decode to six spurious 'a's. */
  lemma PaddingCounterexample()
    ensures |Frequencies([97, 98])| > 0 && BuildTree(Frequencies([97, 98])).Node?
    ensures DecodePadded(BuildTree(Frequencies([97, 98])), Pack(Pad(Container.EncodedBits([97, 98]))))
         == [97, 98, 97, 97, 97, 97, 97, 97]
  {
    FrequenciesAB();
    TwoSymbolsTree();
    CodesAB();
    PaddedABDecodes();
  }

  // ---------------------------------------------------------------------
  // A lone symbol: the root is a leaf, and generateCodes
  // (file_compression_tool.cpp:51-53) gives it the empty path.

  /** A table with one symbol builds a single leaf, to which generateCodes
      gives the empty code. */
  lemma LoneSymbolCodes(table: Table)
    requires |table| == 1
    ensures var root := BuildTree(table);
            root.Leaf? && CodeMap(root, []) == map[root.sym := []] && root.sym in table
  {
    var root := BuildTree(table);
    assert root.sym in Syms(root);
  }

  lemma {:induction false} EncodeEmptyCodes(codes: CodeTable, input: seq<Byte>)
    requires forall i :: 0 <= i < |input| ==> input[i] in codes
    requires forall x :: x in codes ==> codes[x] == []
    ensures Encode(codes, input) == []
  {
    if |input| > 0 {
      EncodeEmptyCodes(codes, input[1..]);
    }
  }

  /** With the source's code table, an input made of one repeated symbol
      encodes to no bits at all, however long it is. */
  lemma LoneSymbolAsWritten(input: seq<Byte>)
    requires |Frequencies(input)| == 1
    ensures forall i :: 0 <= i < |input| ==> input[i] in CodeMap(BuildTree(Frequencies(input)), [])
    ensures Encode(CodeMap(BuildTree(Frequencies(input)), []), input) == []
  {
    var table := Frequencies(input);
    var root := BuildTree(table);
    var codes := CodeMap(root, []);
    assert codes == map[root.sym := []] && root.sym in table by {
      LoneSymbolCodes(table);
    }
    assert forall i :: 0 <= i < |input| ==> input[i] in codes by {
      forall i | 0 <= i < |input|
        ensures input[i] in codes
      {
        assert input[i] in table;
        assert |table.Keys| == 1;
        assert input[i] == root.sym;
      }
    }
    EncodeEmptyCodes(codes, input);
  }

  // ---------------------------------------------------------------------
  // The header reader of file_compression_tool.cpp:179-185 and the payload
  // loop of file_compression_tool.cpp:188-191, on an input stream whose
  // state is the data, a read position and the failbit.

  datatype Stream = Stream(data: seq<Byte>, pos: nat, failed: bool)

  /** The characters `operator>>` skips: space, \t, \n, \v, \f, \r. */
  predicate IsSpace(b: Byte)
  {
    b == 32 || 9 <= b <= 13
  }

  /** Skips leading whitespace, as every formatted extraction does first. */
  function SkipSpace(st: Stream): (r: Stream)
    requires st.pos <= |st.data|
    ensures r.data == st.data && r.failed == st.failed
    ensures st.pos <= r.pos <= |r.data|
    ensures r.pos < |r.data| ==> !IsSpace(r.data[r.pos])
    ensures forall i :: st.pos <= i < r.pos ==> IsSpace(st.data[i])
    decreases |st.data| - st.pos
  {
    if st.pos < |st.data| && IsSpace(st.data[st.pos]) then SkipSpace(st.(pos := st.pos + 1)) else st
  }

  /** `in >> ch` for a char: skips whitespace, then takes one byte; fails at
      the end of the data. On success the byte is the first non-whitespace
      byte at or after the position, and the position ends just past it;
      it fails exactly when only whitespace is left. */
  function ExtractChar(st: Stream): (r: (Stream, Byte))
    requires st.pos <= |st.data|
    ensures r.0.data == st.data && st.pos <= r.0.pos <= |r.0.data|
    ensures st.failed ==> r.0.failed
    ensures !r.0.failed ==> st.pos < r.0.pos && r.1 == st.data[r.0.pos - 1] && !IsSpace(r.1)
    ensures !r.0.failed ==> forall i :: st.pos <= i < r.0.pos - 1 ==> IsSpace(st.data[i])
    ensures !st.failed && r.0.failed ==> forall i :: st.pos <= i < |st.data| ==> IsSpace(st.data[i])
  {
    if st.failed then (st, 0)
    else
      var s := SkipSpace(st);
      if s.pos == |s.data| then (s.(failed := true), 0)
      else (s.(pos := s.pos + 1), s.data[s.pos])
  }

  /** The range of a 32-bit int. */
  const IntMin: int := -0x8000_0000
  const IntMax: int := 0x7FFF_FFFF

  /** `in >> n` for an int: skips whitespace, takes an optional sign and a
      run of decimal digits; fails when there is no digit or the value does
      not fit in an int. */
  function ExtractInt(st: Stream): (r: (Stream, int))
    requires st.pos <= |st.data|
    ensures r.0.data == st.data && st.pos <= r.0.pos <= |r.0.data|
    ensures st.failed ==> r.0.failed
    ensures !r.0.failed ==> st.pos < r.0.pos && IntMin <= r.1 <= IntMax
  {
    if st.failed then (st, 0)
    else
      var s := SkipSpace(st);
      var signed := s.pos < |s.data| && (s.data[s.pos] == 43 || s.data[s.pos] == 45);
      var start := if signed then s.pos + 1 else s.pos;
      var k := Decimal.DigitRun(s.data[start..]);
      if k == 0 then (s.(pos := start, failed := true), 0)
      else
        var magnitude: int := Decimal.DigitsValue(s.data[start..][..k]);
        var n := if signed && s.data[s.pos] == 45 then -magnitude else magnitude;
        if n < IntMin || n > IntMax then (s.(pos := start + k, failed := true), 0)
        else (s.(pos := start + k), n)
  }

  /** `>> freq` reads back a count that `<<` wrote: it stops at the newline
      after the digits and yields the count. */
  lemma ExtractIntOfNumeral(n: nat, rest: seq<Byte>)
    requires n <= IntMax
    ensures var data := Decimal.Numeral(n) + [Decimal.Newline] + rest;
            ExtractInt(Stream(data, 0, false)) == (Stream(data, |Decimal.Numeral(n)|, false), n)
  {
    var ds := Decimal.Numeral(n);
    var data := ds + [Decimal.Newline] + rest;
    var st := Stream(data, 0, false);
    assert SkipSpace(st) == st by {
      assert data[0] == ds[0];
    }
    assert data[0..] == data;
    assert Decimal.DigitRun(data) == |ds| by {
      Decimal.DigitRunOf(ds, Decimal.Newline, rest);
    }
    assert Decimal.DigitsValue(data[..|ds|]) == n by {
      assert data[..|ds|] == ds;
      Decimal.NumeralValue(n);
    }
  }

  /** The record loop of file_compression_tool.cpp:182-184: extracts a char
      and then an int, and stores the pair, for as long as both extractions
      succeed. */
  function ReadRecordsAsWritten(st: Stream, table: map<Byte, int>): (r: (Stream, map<Byte, int>))
    requires st.pos <= |st.data|
    ensures r.0.data == st.data && st.pos <= r.0.pos <= |r.0.data|
    decreases |st.data| - st.pos
  {
    var (s1, ch) := ExtractChar(st);
    var (s2, n) := ExtractInt(s1);
    if s2.failed then (s2, table) else ReadRecordsAsWritten(s2, table[ch := n])
  }

  /** The loop only stops once an extraction has failed, so it always leaves the failbit set. */
  lemma {:induction false} HeaderLoopFails(st: Stream, table: map<Byte, int>)
    requires st.pos <= |st.data|
    ensures ReadRecordsAsWritten(st, table).0.failed
    decreases |st.data| - st.pos
  {
    var (s1, ch) := ExtractChar(st);
    var (s2, n) := ExtractInt(s1);
    if !s2.failed {
      HeaderLoopFails(s2, table[ch := n]);
    }
  }

  /** `in.ignore(count, delim)`: skips up to count bytes, stopping after delim; does nothing on a failed stream. */
  function Ignore(st: Stream, count: nat, delim: Byte): (r: Stream)
    requires st.pos <= |st.data|
    ensures r.data == st.data && r.failed == st.failed && st.pos <= r.pos <= |r.data|
    ensures st.failed ==> r == st
    ensures r.pos <= st.pos + count
    ensures forall i :: st.pos <= i < r.pos - 1 ==> st.data[i] != delim
    ensures !st.failed ==> r.pos == |r.data| || r.pos == st.pos + count || (st.pos < r.pos && st.data[r.pos - 1] == delim)
    decreases count
  {
    if st.failed || count == 0 || st.pos == |st.data| then st
    else if st.data[st.pos] == delim then st.(pos := st.pos + 1)
    else Ignore(st.(pos := st.pos + 1), count - 1, delim)
  }

  /** The payload loop of file_compression_tool.cpp:191: unformatted reads
      of one byte each until one fails. It reads the rest of the data, or
      nothing on a failed stream. */
  function GetAll(st: Stream): (bytes: seq<Byte>)
    requires st.pos <= |st.data|
    ensures st.failed ==> bytes == []
    ensures !st.failed ==> bytes == st.data[st.pos..]
    decreases |st.data| - st.pos
  {
    if st.failed || st.pos == |st.data| then []
    else [st.data[st.pos]] + GetAll(st.(pos := st.pos + 1))
  }

  /** The payload bytes the source's decompressFile hands to its decoding
      loop: never more than the container holds. */
  function PayloadAsWritten(container: seq<Byte>): (payload: seq<Byte>)
    ensures |payload| <= |container|
  {
    var header := ReadRecordsAsWritten(Stream(container, 0, false), map[]);
    GetAll(Ignore(header.0, 4, 10))
  }

  /** Whatever the container holds, the payload loop reads no byte, so
      whenever the table read so far builds a tree with children the
      source's decompressFile emits nothing. A table that builds no such
      tree is not covered: an empty one reaches `top()` on an empty heap
      first (see EmptyTableFromSpaceRecord). */
  lemma DecompressAsWrittenIsEmpty(container: seq<Byte>, root: Tree)
    requires root.Node?
    ensures PayloadAsWritten(container) == []
    ensures DecodePadded(root, PayloadAsWritten(container)) == []
  {
    HeaderLoopFails(Stream(container, 0, false), map[]);
  }

  /** The container the source writes for " " is " 1\nEND\n": `>> ch`
      skips the space and reads '1', then `>> freq` skips the newline and
      fails on 'E', so the record loop leaves the table empty. */
  lemma EmptyTableFromSpaceRecord()
    ensures ReadRecordsAsWritten(Stream([32, 49, 10, 69, 78, 68, 10], 0, false), map[]).1 == map[]
  {
    var data: seq<Byte> := [32, 49, 10, 69, 78, 68, 10];
    assert ExtractChar(Stream(data, 0, false)) == (Stream(data, 2, false), 49);
    assert SkipSpace(Stream(data, 2, false)) == Stream(data, 3, false);
    assert data[3..][0] == 69;
    assert Decimal.DigitRun(data[3..]) == 0;
    assert ExtractInt(Stream(data, 2, false)).0.failed;
  }

  /** The record the writer emits for a space, " 1\n", is read back as the
      symbol '1' because `operator>>` skips the space. */
  lemma SpaceRecordMisread()
    ensures Header.Record(map[32 := 1], 32) == [32, 49, 10]
    ensures ExtractChar(Stream([32, 49, 10], 0, false)) == (Stream([32, 49, 10], 2, false), 49)
  {
    assert Decimal.Numeral(1) == [49];
  }
}

=== FILE: bits.dfy ===
/** Bytes and bit strings: zero padding to a byte boundary, packing eight bits
    per byte most significant bit first (`std::bitset<8>` built from a string
    of '0'/'1'), and unpacking with `test(7 - i)`. */
module Bits {

  /** One byte value. The source reads `char`; symbols are modelled unsigned, 0..255. */
  type Byte = x: int | 0 <= x < 256

  /** A bit string; `true` is the character '1'. */
  type BitString = seq<bool>

  function Pow2(k: nat): (r: nat)
    ensures r >= 1
  {
    if k == 0 then 1 else 2 * Pow2(k - 1)
  }

  /** The number a bit string denotes when its first bit is the most significant. */
  function Value(bits: BitString): (v: nat)
    ensures v < Pow2(|bits|)
  {
    if |bits| == 0 then 0
    else 2 * Value(bits[..|bits| - 1]) + (if bits[|bits| - 1] then 1 else 0)
  }

  /** The k low-order bits of n, most significant first. */
  function ToBits(n: nat, k: nat): (bits: BitString)
    ensures |bits| == k
  {
    if k == 0 then [] else ToBits(n / 2, k - 1) + [n % 2 == 1]
  }

  lemma {:induction false} ToBitsOfValue(bits: BitString)
    ensures ToBits(Value(bits), |bits|) == bits
  {
    if |bits| > 0 {
      var init := bits[..|bits| - 1];
      ToBitsOfValue(init);
      assert Value(bits) / 2 == Value(init);
      assert bits == init + [bits[|bits| - 1]];
    }
  }

  lemma {:induction false} ValueOfToBits(n: nat, k: nat)
    requires n < Pow2(k)
    ensures Value(ToBits(n, k)) == n
  {
    if k > 0 {
      ValueOfToBits(n / 2, k - 1);
      var bits := ToBits(n, k);
      assert bits[..k - 1] == ToBits(n / 2, k - 1);
    }
  }

  lemma MulAtLeast(d: int, k: int)
    requires d > 0 && k >= 1
    ensures d * k >= d
  {
    if k > 1 {
      MulAtLeast(d, k - 1);
      assert d * k == d * (k - 1) + d;
    }
  }

  lemma DivUnique(n: int, d: int, q: int, r: int)
    requires d > 0 && n == d * q + r && 0 <= r < d
    ensures n / d == q
  {
    var q', r' := n / d, n % d;
    assert d * q' + r' == d * q + r;
    var lo, hi := if q' < q then q' else q, if q' < q then q else q';
    assert d * (hi - lo) == d * hi - d * lo;
    if lo < hi {
      MulAtLeast(d, hi - lo);
      assert false;
    }
  }

  lemma DivDiv(n: nat, a: nat)
    requires a >= 1
    ensures n / 2 / a == n / (2 * a)
  {
    var q := n / (2 * a);
    var r := n % (2 * a);
    assert n == (2 * a) * q + r;
    DivUnique(n, 2, a * q + r / 2, r % 2);
    DivUnique(n / 2, a, q, r / 2);
  }

  /** Bit i of ToBits(n, k) is bit k-1-i of n counted from the least significant end. */
  lemma {:induction false} ToBitsTest(n: nat, k: nat, i: nat)
    requires i < k
    ensures ToBits(n, k)[i] == ((n / Pow2(k - 1 - i)) % 2 == 1)
  {
    if i < k - 1 {
      ToBitsTest(n / 2, k - 1, i);
      DivDiv(n, Pow2(k - 2 - i));
    }
  }

  /** One output byte of file_compression_tool.cpp:98-99: eight bits, first bit most significant. */
  function PackByte(bits: BitString): (b: Byte)
    requires |bits| == 8
    ensures ToBits(b, 8) == bits
  {
    ToBitsOfValue(bits);
    Value(bits)
  }

  /** The eight bits of one payload byte in the order file_compression_tool.cpp:193-194 reads them. */
  function UnpackByte(b: Byte): (bits: BitString)
    ensures |bits| == 8
    ensures forall i :: 0 <= i < 8 ==> bits[i] == ((b / Pow2(7 - i)) % 2 == 1)
  {
    var r := ToBits(b, 8);
    assert forall i :: 0 <= i < 8 ==> r[i] == ((b / Pow2(7 - i)) % 2 == 1) by {
      forall i | 0 <= i < 8 {
        ToBitsTest(b, 8, i);
      }
    }
    r
  }

  lemma UnpackPackByte(bits: BitString)
    requires |bits| == 8
    ensures UnpackByte(PackByte(bits)) == bits
  {
  }

  lemma PackUnpackByte(b: Byte)
    ensures PackByte(UnpackByte(b)) == b
  {
    assert Pow2(8) == 256;
    ValueOfToBits(b, 8);
  }

  /** The number of '0' characters the loop at file_compression_tool.cpp:93-95 appends. */
  function PadLength(n: nat): (k: nat)
    ensures k < 8 && (n + k) % 8 == 0
  {
    if n % 8 == 0 then 0 else 8 - n % 8
  }

  /** One more bit needs one bit less of padding, unless it completes a byte. */
  lemma PadLengthStep(n: nat)
    requires n % 8 != 0
    ensures PadLength(n + 1) + 1 == PadLength(n)
  {
    var q, r := n / 8, n % 8;
    assert n == 8 * q + r;
    if r == 7 {
      DivUnique(n + 1, 8, q + 1, 0);
      assert (n + 1) % 8 == 0;
    } else {
      DivUnique(n + 1, 8, q, r + 1);
      assert (n + 1) % 8 == r + 1;
    }
  }

  /** n zero bits. */
  function Zeros(n: nat): (z: BitString)
    ensures |z| == n && forall i :: 0 <= i < n ==> !z[i]
  {
    if n == 0 then [] else [false] + Zeros(n - 1)
  }

  /** Appends '0' until the length is a multiple of eight, one bit per iteration. */
  function Pad(bits: BitString): (padded: BitString)
    ensures padded == bits + Zeros(PadLength(|bits|))
    ensures |padded| % 8 == 0 && |padded| < |bits| + 8
    decreases PadLength(|bits|)
  {
    if |bits| % 8 == 0 then bits
    else
      PadLengthStep(|bits|);
      Pad(bits + [false])
  }

  /** Packs a byte-aligned bit string into bytes, eight bits per byte. */
  function Pack(bits: BitString): (bytes: seq<Byte>)
    requires |bits| % 8 == 0
    ensures 8 * |bytes| == |bits|
    ensures forall j :: 0 <= j < |bytes| ==> ToBits(bytes[j], 8) == bits[8 * j .. 8 * j + 8]
  {
    if |bits| == 0 then []
    else
      var rest := Pack(bits[8..]);
      assert forall j :: 0 <= j < |rest| ==> bits[8..][8 * j .. 8 * j + 8] == bits[8 * (j + 1) .. 8 * (j + 1) + 8];
      [PackByte(bits[..8])] + rest
  }

  /** The bit stream a payload denotes when read as the decoder reads it. */
  function Unpack(bytes: seq<Byte>): (bits: BitString)
    ensures |bits| == 8 * |bytes|
  {
    if |bytes| == 0 then [] else UnpackByte(bytes[0]) + Unpack(bytes[1..])
  }

  lemma {:induction false} UnpackPack(bits: BitString)
    requires |bits| % 8 == 0
    ensures Unpack(Pack(bits)) == bits
  {
    if |bits| > 0 {
      UnpackPack(bits[8..]);
      UnpackPackByte(bits[..8]);
      assert Pack(bits)[1..] == Pack(bits[8..]);
      assert bits == bits[..8] + bits[8..];
    }
  }

  lemma {:induction false} PackUnpack(bytes: seq<Byte>)
    ensures Pack(Unpack(bytes)) == bytes
  {
    if |bytes| > 0 {
      PackUnpack(bytes[1..]);
      PackUnpackByte(bytes[0]);
      var u := Unpack(bytes);
      assert u[..8] == UnpackByte(bytes[0]);
      assert u[8..] == Unpack(bytes[1..]);
    }
  }

  /** The padded, packed payload holds exactly ceil(|bits| / 8) bytes and
      unpacks to the original bits followed by zero padding. */
  lemma PaddedPayload(bits: BitString)
    ensures |Pack(Pad(bits))| == (|bits| + 7) / 8
    ensures Unpack(Pack(Pad(bits)))[..|bits|] == bits
  {
    UnpackPack(Pad(bits));
  }
}

=== FILE: codes.dfy ===
/** Code derivation (generateCodes, file_compression_tool.cpp:48-57) and the
    bit string encoder of file_compression_tool.cpp:88-91. */
module Encoding {
  import opened Bits
  import opened Frequency
  import opened HuffmanTree
  import opened Results

  /** Symbol -> code word. */
  type CodeTable = map<Byte, BitString>

  /** The symbol of the leaf that `path` leads to from t (0 = left, 1 = right),
      when the path ends exactly at a leaf. */
  function LeafAt(t: Tree, path: BitString): Option<Byte>
  {
    if |path| == 0 then (if t.Leaf? then Some(t.sym) else None)
    else
      match t
      case Leaf(_, _) => None
      case Node(l, r, _) => LeafAt(if path[0] then r else l, path[1..])
  }

  predicate IsPrefix(p: BitString, q: BitString)
  {
    |p| <= |q| && q[..|p|] == p
  }

  /** No code word is a prefix of another symbol's code word. */
  ghost predicate PrefixFree(codes: CodeTable)
  {
    forall x, y :: x in codes && y in codes && x != y ==> !IsPrefix(codes[x], codes[y])
  }

  /** Stepping into a child consumes the first bit of a path. */
  lemma LeafAtStep(t: Tree, bit: bool, path: BitString)
    requires t.Node?
    ensures LeafAt(t, [bit] + path) == LeafAt(if bit then t.right else t.left, path)
  {
    assert ([bit] + path)[1..] == path;
  }

  /** generateCodes: every leaf is given the path that leads to it. A symbol
      found at two leaves keeps the later (rightmost) path, as the source's
      map assignment does. */
  function CodeMap(t: Tree, prefix: BitString): (codes: CodeTable)
    ensures forall x :: x in codes <==> x in Syms(t)
  {
    match t
    case Leaf(x, _) => map[x := prefix]
    case Node(l, r, _) => CodeMap(l, prefix + [false]) + CodeMap(r, prefix + [true])
  }

  /** `c` is the prefix followed by a path from t to the leaf holding x. */
  predicate PathTo(t: Tree, prefix: BitString, c: BitString, x: Byte)
  {
    IsPrefix(prefix, c) && LeafAt(t, c[|prefix|..]) == Some(x)
  }

  /** A path into a child, extended by the bit that selects that child, is a path into the node. */
  lemma ChildPath(t: Tree, prefix: BitString, bit: bool, c: BitString, x: Byte)
    requires t.Node?
    requires PathTo(if bit then t.right else t.left, prefix + [bit], c, x)
    ensures PathTo(t, prefix, c, x)
  {
    assert c[|prefix|..] == [bit] + c[|prefix| + 1..];
    LeafAtStep(t, bit, c[|prefix| + 1..]);
  }

  /** Each code word is the prefix followed by a path from t to a leaf holding that symbol. */
  lemma {:induction false} CodeMapLeafPaths(t: Tree, prefix: BitString)
    ensures forall x :: x in CodeMap(t, prefix) ==> PathTo(t, prefix, CodeMap(t, prefix)[x], x)
  {
    match t
    case Leaf(x, _) =>
    case Node(l, r, _) =>
      var left, right := CodeMap(l, prefix + [false]), CodeMap(r, prefix + [true]);
      assert CodeMap(t, prefix) == left + right;
      CodeMapLeafPaths(l, prefix + [false]);
      CodeMapLeafPaths(r, prefix + [true]);
      forall x | x in left + right
        ensures PathTo(t, prefix, (left + right)[x], x)
      {
        if x in right {
          ChildPath(t, prefix, true, right[x], x);
        } else {
          ChildPath(t, prefix, false, left[x], x);
        }
      }
  }

  /** The code table the codec uses: generateCodes' paths, except that a lone
      symbol (the root itself is a leaf) is given the code 0 instead of the
      empty path. */
  function Codes(t: Tree): (codes: CodeTable)
    ensures forall x :: x in codes <==> x in Syms(t)
    ensures forall x :: x in codes ==> |codes[x]| >= 1
    ensures t.Node? ==> forall x :: x in codes ==> LeafAt(t, codes[x]) == Some(x)
  {
    if t.Leaf? then map[t.sym := [false]]
    else
      var codes := CodeMap(t, []);
      CodeMapLeafPaths(t, []);
      assert forall x :: x in codes ==> codes[x][0..] == codes[x];
      codes
  }

  /** Two paths that both end at leaves cannot be proper prefixes of one another. */
  lemma {:induction false} LeafPathsIncomparable(t: Tree, p: BitString, q: BitString)
    requires LeafAt(t, p).Some? && LeafAt(t, q).Some?
    requires IsPrefix(p, q)
    ensures p == q
  {
    if |p| > 0 {
      var child := if p[0] then t.right else t.left;
      assert q[0] == p[0];
      assert IsPrefix(p[1..], q[1..]);
      LeafPathsIncomparable(child, p[1..], q[1..]);
      assert p == [p[0]] + p[1..] && q == [q[0]] + q[1..];
    }
  }

  /** The codes derived from any tree form a prefix code. */
  lemma CodesPrefixFree(t: Tree)
    ensures PrefixFree(Codes(t))
  {
    var codes := Codes(t);
    if t.Node? {
      forall x, y | x in codes && y in codes && x != y
        ensures !IsPrefix(codes[x], codes[y])
      {
        if IsPrefix(codes[x], codes[y]) {
          LeafPathsIncomparable(t, codes[x], codes[y]);
        }
      }
    }
  }

  /** The subtree that `path` leads to from t, when the path stays inside the tree. */
  function SubtreeAt(t: Tree, path: BitString): Option<Tree>
  {
    if |path| == 0 then Some(t)
    else
      match t
      case Leaf(_, _) => None
      case Node(l, r, _) => SubtreeAt(if path[0] then r else l, path[1..])
  }

  /** The number of nodes of a tree. */
  function Size(t: Tree): nat
  {
    match t
    case Leaf(_, _) => 1
    case Node(l, r, _) => 1 + Size(l) + Size(r)
  }

  /** A path ends at a leaf exactly when the subtree it reaches is that leaf. */
  lemma {:induction false} LeafAtSubtree(t: Tree, path: BitString)
    ensures LeafAt(t, path).Some? <==> SubtreeAt(t, path).Some? && SubtreeAt(t, path).value.Leaf?
    ensures LeafAt(t, path).Some? ==> LeafAt(t, path).value == SubtreeAt(t, path).value.sym
  {
    if |path| > 0 && t.Node? {
      LeafAtSubtree(if path[0] then t.right else t.left, path[1..]);
    }
  }

  /** One more bit from an internal node reaches one of its children. */
  lemma {:induction false} SubtreeStep(t: Tree, path: BitString, bit: bool)
    requires SubtreeAt(t, path).Some? && SubtreeAt(t, path).value.Node?
    ensures var n := SubtreeAt(t, path).value;
            SubtreeAt(t, path + [bit]) == Some(if bit then n.right else n.left)
  {
    if |path| > 0 {
      assert (path + [bit])[1..] == path[1..] + [bit];
      SubtreeStep(if path[0] then t.right else t.left, path[1..], bit);
    }
  }

  /** A non-empty path reaches a strictly smaller subtree. */
  lemma {:induction false} SubtreeSmaller(t: Tree, path: BitString)
    requires |path| > 0 && SubtreeAt(t, path).Some?
    ensures Size(SubtreeAt(t, path).value) < Size(t)
  {
    assert t.Node?;
    if |path| > 1 {
      SubtreeSmaller(if path[0] then t.right else t.left, path[1..]);
    }
  }

  /** A leaf's symbol is one of the tree's symbols. */
  lemma {:induction false} LeafAtInSyms(t: Tree, path: BitString)
    requires LeafAt(t, path).Some?
    ensures LeafAt(t, path).value in Syms(t)
  {
    if |path| > 0 {
      LeafAtInSyms(if path[0] then t.right else t.left, path[1..]);
    }
  }

  /** When every symbol occurs once, generateCodes gives each leaf's symbol
      exactly the path to that leaf. */
  lemma {:induction false} CodeMapOfLeaf(t: Tree, prefix: BitString, path: BitString)
    requires UniqueSyms(t) && LeafAt(t, path).Some?
    ensures var x := LeafAt(t, path).value;
            x in CodeMap(t, prefix) && CodeMap(t, prefix)[x] == prefix + path
  {
    var x := LeafAt(t, path).value;
    if |path| == 0 {
      assert prefix + path == prefix;
    } else {
      var l, r := t.left, t.right;
      assert UniqueSyms(l) && UniqueSyms(r) by {
        forall y | y in Syms(l) || y in Syms(r)
          ensures Syms(l)[y] <= 1 && Syms(r)[y] <= 1
        {
          assert Syms(t)[y] == Syms(l)[y] + Syms(r)[y];
        }
      }
      assert prefix + path == (prefix + [path[0]]) + path[1..];
      if path[0] {
        CodeMapOfLeaf(r, prefix + [true], path[1..]);
      } else {
        CodeMapOfLeaf(l, prefix + [false], path[1..]);
        LeafAtInSyms(l, path[1..]);
        assert Syms(t)[x] == Syms(l)[x] + Syms(r)[x];
        assert x !in CodeMap(r, prefix + [true]);
      }
    }
  }

  /** The bit string of file_compression_tool.cpp:88-91: the input's code words
      concatenated in input order. */
  function Encode(codes: CodeTable, input: seq<Byte>): (bits: BitString)
    requires forall i :: 0 <= i < |input| ==> input[i] in codes
    ensures |input| > 0 ==> codes[input[0]] <= bits
    ensures |input| == 0 ==> bits == []
  {
    if |input| == 0 then [] else codes[input[0]] + Encode(codes, input[1..])
  }

  lemma {:induction false} EncodeAppend(codes: CodeTable, input: seq<Byte>, x: Byte)
    requires forall i :: 0 <= i < |input| ==> input[i] in codes
    requires x in codes
    ensures Encode(codes, input + [x]) == Encode(codes, input) + codes[x]
  {
    if |input| > 0 {
      assert (input + [x])[1..] == input[1..] + [x];
      EncodeAppend(codes, input[1..], x);
    }
  }

  /** Encoding with non-empty code words never yields fewer bits than symbols. */
  lemma {:induction false} EncodeLengthAtLeast(codes: CodeTable, input: seq<Byte>)
    requires forall i :: 0 <= i < |input| ==> input[i] in codes
    requires forall x :: x in codes ==> |codes[x]| >= 1
    ensures |Encode(codes, input)| >= |input|
  {
    if |input| > 0 {
      EncodeLengthAtLeast(codes, input[1..]);
    }
  }

  function CodeLength(codes: CodeTable, x: Byte): nat
  {
    if x in codes then |codes[x]| else 0
  }

  /** Sum over the symbols lo..255 of count times code length. */
  function CostFrom(table: Table, codes: CodeTable, lo: int): nat
    requires 0 <= lo <= 256
    decreases 256 - lo
  {
    if lo == 256 then 0
    else CountOf(table, lo) * CodeLength(codes, lo) + CostFrom(table, codes, lo + 1)
  }

  lemma {:induction false} CostFromEmpty(codes: CodeTable, lo: int)
    requires 0 <= lo <= 256
    ensures CostFrom(map[], codes, lo) == 0
    decreases 256 - lo
  {
    if lo < 256 {
      CostFromEmpty(codes, lo + 1);
    }
  }

  lemma {:induction false} CostFromIncrement(table: Table, codes: CodeTable, x: Byte, lo: int)
    requires 0 <= lo <= 256
    ensures CostFrom(table[x := CountOf(table, x) + 1], codes, lo)
         == CostFrom(table, codes, lo) + (if lo <= x then CodeLength(codes, x) else 0)
    decreases 256 - lo
  {
    if lo < 256 {
      CostFromIncrement(table, codes, x, lo + 1);
      if lo == x {
        var n := CountOf(table, x);
        assert (n + 1) * CodeLength(codes, x) == n * CodeLength(codes, x) + CodeLength(codes, x);
      }
    }
  }

  /** One more byte of input adds its code length to the cost. */
  lemma CostOfLast(codes: CodeTable, input: seq<Byte>)
    requires |input| > 0
    ensures CostFrom(Frequencies(input), codes, 0)
         == CostFrom(Frequencies(input[..|input| - 1]), codes, 0) + CodeLength(codes, input[|input| - 1])
  {
    var table := Frequencies(input[..|input| - 1]);
    FrequenciesLast(input);
    CostFromIncrement(table, codes, input[|input| - 1], 0);
  }

  /** The encoded length is the sum over symbols of frequency times code length. */
  lemma {:induction false} EncodedLength(codes: CodeTable, input: seq<Byte>)
    requires forall i :: 0 <= i < |input| ==> input[i] in codes
    ensures |Encode(codes, input)| == CostFrom(Frequencies(input), codes, 0)
  {
    if |input| == 0 {
      CostFromEmpty(codes, 0);
    } else {
      var init := input[..|input| - 1];
      var x := input[|input| - 1];
      assert |Encode(codes, input)| == |Encode(codes, init)| + |codes[x]| by {
        assert input == init + [x];
        EncodeAppend(codes, init, x);
      }
      assert |Encode(codes, init)| == CostFrom(Frequencies(init), codes, 0) by {
        EncodedLength(codes, init);
      }
      CostOfLast(codes, input);
    }
  }
}

=== FILE: container.dfy ===
/** The whole codec: compressFile (file_compression_tool.cpp:59-101) and the
    decoding half of decompressFile (file_compression_tool.cpp:168-201), with
    files as byte sequences. The container is the header, then the number of
    meaningful bits as a decimal line, then the packed, zero-padded bits. */
module Container {
  import opened Bits
  import opened Frequency
  import opened HuffmanTree
  import opened Encoding
  import opened Decoder
  import opened Decimal
  import opened Header
  import opened Results

  /** Every symbol of the input has a code in the tree built from its own frequencies. */
  lemma InputHasCodes(input: seq<Byte>)
    requires |Frequencies(input)| > 0
    ensures forall i :: 0 <= i < |input| ==> input[i] in Codes(BuildTree(Frequencies(input)))
  {
    var table := Frequencies(input);
    var codes := Codes(BuildTree(table));
    forall i | 0 <= i < |input|
      ensures input[i] in codes
    {
      assert input[i] in table;
      assert input[i] in multiset(table.Keys);
    }
  }

  /** The bit string compressFile builds before padding (file_compression_tool.cpp:88-91). */
  function EncodedBits(input: seq<Byte>): (bits: BitString)
    ensures |bits| >= |input|
  {
    var table := Frequencies(input);
    if |table| == 0 then
      FrequenciesEmpty(input);
      []
    else
      var codes := Codes(BuildTree(table));
      InputHasCodes(input);
      EncodeLengthAtLeast(codes, input);
      Encode(codes, input)
  }

  /** Writes the container for an input. The table is enumerated in ascending
      symbol order; any other order gives the same table on reading back. */
  function Compress(input: seq<Byte>): (c: seq<Byte>)
    ensures |c| >= 3 * |Frequencies(input)| + |EndMarker| + 2
  {
    var table := Frequencies(input);
    var bits := EncodedBits(input);
    var header := WriteHeader(table, AscendingKeys(table, 0));
    assert |header| >= 3 * |table| + |EndMarker| by {
      AscendingKeysMultiset(table);
      assert |multiset(AscendingKeys(table, 0))| == |multiset(table.Keys)|;
    }
    header + (Numeral(|bits|) + [Newline] + Pack(Pad(bits)))
  }

  lemma CeilBytes(n: nat)
    ensures 8 * ((n + 7) / 8) >= n
  {
  }

  /** Reads a container back. The payload must hold exactly as many bytes as
      the bit count needs; only that many bits are decoded. */
  function Decompress(c: seq<Byte>): (r: Result<seq<Byte>>)
    ensures ReadHeader(c).Err? ==> r == Err(MalformedContainer)
    ensures r == Err(EmptyAlphabet) ==> ReadHeader(c).Ok? && ReadHeader(c).value.0 == map[]
  {
    var header :- ReadHeader(c);
    var table, afterHeader := header.0, header.1;
    var count :- ReadNumberLine(afterHeader);
    var nbits, payload := count.0, count.1;
    if |payload| != (nbits + 7) / 8 then Err(MalformedContainer)
    else
      CeilBytes(nbits);
      var bits := Unpack(payload)[..nbits];
      if |table| == 0 then
        if nbits == 0 then Ok([]) else Err(EmptyAlphabet)
      else DecodeBits(BuildTree(table), bits)
  }

  /** The parts a container is made of, as the reader finds them. */
  lemma CompressLayout(input: seq<Byte>)
    ensures var table := Frequencies(input);
            var bits := EncodedBits(input);
            && ReadHeader(Compress(input)) == Ok((table, Numeral(|bits|) + [Newline] + Pack(Pad(bits))))
            && ReadNumberLine(Numeral(|bits|) + [Newline] + Pack(Pad(bits))) == Ok((|bits|, Pack(Pad(bits))))
  {
    var table := Frequencies(input);
    var bits := EncodedBits(input);
    var rest := Numeral(|bits|) + [Newline] + Pack(Pad(bits));
    ReadHeaderOf(table, AscendingKeys(table, 0), rest);
    ReadNumberLineOf(|bits|, Pack(Pad(bits)));
  }

  /** A container whose header and bit count parse and whose payload has the
      right length decodes its bits with the tree of its table. */
  lemma DecompressWellFormed(c: seq<Byte>, table: Table, afterHeader: seq<Byte>, nbits: nat, payload: seq<Byte>)
    requires ReadHeader(c) == Ok((table, afterHeader))
    requires ReadNumberLine(afterHeader) == Ok((nbits, payload))
    requires |payload| == (nbits + 7) / 8
    ensures nbits <= |Unpack(payload)|
    ensures |table| == 0 ==> Decompress(c) == (if nbits == 0 then Ok([]) else Err(EmptyAlphabet))
    ensures |table| > 0 ==> Decompress(c) == DecodeBits(BuildTree(table), Unpack(payload)[..nbits])
  {
    CeilBytes(nbits);
    if |table| == 0 {
      assert Decompress(c) == (if nbits == 0 then Ok([]) else Err(EmptyAlphabet));
    } else {
      assert Decompress(c) == DecodeBits(BuildTree(table), Unpack(payload)[..nbits]);
    }
  }

  /** Empty input gives an empty header, a bit count of 0 and no payload. */
  lemma CompressEmpty()
    ensures Compress([]) == EndMarker + [Zero, Newline]
  {
    assert Numeral(0) == [Zero];
    assert Pad([]) == [];
  }

  /** A file with no "END\n" anywhere in it is rejected as malformed. */
  lemma NoTerminatorDecompress(c: seq<Byte>)
    requires !Occurs(c, EndMarker)
    ensures Decompress(c) == Err(MalformedContainer)
  {
    NoTerminatorRejected(c, map[]);
  }

  /** Decompression inverts compression for every input. */
  lemma RoundTrip(input: seq<Byte>)
    ensures Decompress(Compress(input)) == Ok(input)
  {
    var table := Frequencies(input);
    var bits := EncodedBits(input);
    var payload := Pack(Pad(bits));
    CompressLayout(input);
    PaddedPayload(bits);
    DecompressWellFormed(Compress(input), table, Numeral(|bits|) + [Newline] + payload, |bits|, payload);
    assert Unpack(payload)[..|bits|] == bits;
    FrequenciesEmpty(input);
    if |table| > 0 {
      InputHasCodes(input);
      DecodeEncoded(BuildTree(table), input);
    }
  }

  /** A container whose payload length disagrees with its bit count is rejected. */
  lemma DecompressLengthMismatch(c: seq<Byte>, table: Table, afterHeader: seq<Byte>, nbits: nat, payload: seq<Byte>)
    requires ReadHeader(c) == Ok((table, afterHeader))
    requires ReadNumberLine(afterHeader) == Ok((nbits, payload))
    requires |payload| != (nbits + 7) / 8
    ensures Decompress(c) == Err(MalformedContainer)
  {
  }

  lemma DropLast(front: seq<Byte>, back: seq<Byte>)
    requires |back| > 0
    ensures (front + back)[..|front + back| - 1] == front + back[..|back| - 1]
  {
  }

  /** Any container whose payload is cut short by one byte is rejected,
      whatever the table and the order it was written in. */
  lemma TruncatedContainer(table: Table, order: seq<Byte>, nbits: nat, payload: seq<Byte>, c: seq<Byte>)
    requires forall x :: x in order <==> x in table
    requires |payload| == (nbits + 7) / 8 > 0
    requires c == WriteHeader(table, order) + (Numeral(nbits) + [Newline] + payload)
    ensures |c| > 0 && Decompress(c[..|c| - 1]) == Err(MalformedContainer)
  {
    var header := WriteHeader(table, order);
    var line := Numeral(nbits) + [Newline];
    DropLast(header, line + payload);
    DropLast(line, payload);
    MisfitPayloadRejected(table, order, nbits, payload[..|payload| - 1], c[..|c| - 1]);
  }

  /** A written header and bit count followed by a payload of the wrong
      length is rejected. */
  lemma MisfitPayloadRejected(table: Table, order: seq<Byte>, nbits: nat, payload: seq<Byte>, c: seq<Byte>)
    requires forall x :: x in order <==> x in table
    requires |payload| != (nbits + 7) / 8
    requires c == WriteHeader(table, order) + (Numeral(nbits) + [Newline] + payload)
    ensures Decompress(c) == Err(MalformedContainer)
  {
    var line := Numeral(nbits) + [Newline];
    assert ReadHeader(c) == Ok((table, line + payload)) by {
      ReadHeaderOf(table, order, line + payload);
    }
    assert ReadNumberLine(line + payload) == Ok((nbits, payload)) by {
      ReadNumberLineOf(nbits, payload);
    }
    DecompressLengthMismatch(c, table, line + payload, nbits, payload);
  }
}

=== FILE: decimal.dfy ===
/** Unsigned decimal numerals as the container writes them with `operator<<`
    on an int, and a reader for "<digits>\n" lines. */
module Decimal {
  import opened Bits
  import opened Results

  /** The ASCII code of '0'. */
  const Zero: Byte := 48
  /** The ASCII code of '\n'. */
  const Newline: Byte := 10

  predicate IsDigit(b: Byte)
  {
    Zero <= b < Zero + 10
  }

  /** The decimal numeral of n: no sign, no leading zeros, at least one digit. */
  function Numeral(n: nat): (ds: seq<Byte>)
    ensures |ds| >= 1
    ensures forall i :: 0 <= i < |ds| ==> IsDigit(ds[i])
    ensures |ds| > 1 ==> ds[0] != Zero
  {
    if n < 10 then [Zero + n] else Numeral(n / 10) + [Zero + n % 10]
  }

  /** The number a run of digits denotes, most significant digit first. */
  function DigitsValue(ds: seq<Byte>): nat
    requires forall i :: 0 <= i < |ds| ==> IsDigit(ds[i])
  {
    if |ds| == 0 then 0
    else
      var last := ds[|ds| - 1];
      assert IsDigit(last);
      10 * DigitsValue(ds[..|ds| - 1]) + (last - Zero)
  }

  /** A numeral denotes the number it was written for. */
  lemma {:induction false} NumeralValue(n: nat)
    ensures DigitsValue(Numeral(n)) == n
  {
    if n >= 10 {
      NumeralValue(n / 10);
      var ds := Numeral(n);
      assert ds[..|ds| - 1] == Numeral(n / 10);
    }
  }

  /** The length of the run of digits at the front of s. */
  function DigitRun(s: seq<Byte>): (k: nat)
    ensures k <= |s|
    ensures forall i :: 0 <= i < k ==> IsDigit(s[i])
    ensures k < |s| ==> !IsDigit(s[k])
  {
    if |s| == 0 || !IsDigit(s[0]) then 0 else 1 + DigitRun(s[1..])
  }

  /** A run of digits followed by a non-digit is read in full. */
  lemma {:induction false} DigitRunOf(ds: seq<Byte>, b: Byte, rest: seq<Byte>)
    requires forall i :: 0 <= i < |ds| ==> IsDigit(ds[i])
    requires !IsDigit(b)
    ensures DigitRun(ds + [b] + rest) == |ds|
  {
    if |ds| > 0 {
      assert (ds + [b] + rest)[1..] == ds[1..] + [b] + rest;
      DigitRunOf(ds[1..], b, rest);
    }
  }

  /** Reads "<digits>\n" from the front of s: at least one digit, then a newline.
      Yields the number and what follows the newline. */
  function ReadNumberLine(s: seq<Byte>): (r: Result<(nat, seq<Byte>)>)
    ensures r.Ok? ==> |r.value.1| + 2 <= |s| && s[|s| - |r.value.1| - 1] == Newline
    ensures r.Ok? ==> r.value.1 == s[|s| - |r.value.1|..]
    ensures r.Err? ==> r.error == MalformedContainer
  {
    var k := DigitRun(s);
    if k == 0 || k == |s| || s[k] != Newline then Err(MalformedContainer)
    else Ok((DigitsValue(s[..k]), s[k + 1..]))
  }

  /** Reading back a written number line yields the number and leaves the rest untouched. */
  lemma ReadNumberLineOf(n: nat, rest: seq<Byte>)
    ensures ReadNumberLine(Numeral(n) + [Newline] + rest) == Ok((n, rest))
  {
    var ds := Numeral(n);
    var s := ds + [Newline] + rest;
    DigitRunOf(ds, Newline, rest);
    assert s[..|ds|] == ds;
    assert s[|ds| + 1..] == rest;
    NumeralValue(n);
  }
}

=== FILE: decode.dfy ===
/** The tree-walk decoder of file_compression_tool.cpp:189-200: a state
    machine over the current node that steps left on 0 and right on 1 and,
    on reaching a leaf, emits its symbol and returns to the root. */
module Decoder {
  import opened Bits
  import opened HuffmanTree
  import opened Encoding
  import opened Results

  /** What a walk has produced: the emitted symbols and the node it stopped at. */
  datatype Walked = Walked(output: seq<Byte>, node: Tree)

  /** Runs the decoding loop over `bits` starting at the internal node `cur`. */
  function Walk(root: Tree, cur: Tree, bits: BitString): (r: Walked)
    requires root.Node? && cur.Node?
    ensures r.node.Node?
    ensures |r.output| <= |bits|
    decreases |bits|
  {
    if |bits| == 0 then Walked([], cur)
    else
      var next := if bits[0] then cur.right else cur.left;
      if next.Leaf? then
        var rest := Walk(root, root, bits[1..]);
        Walked([next.sym] + rest.output, rest.node)
      else Walk(root, next, bits[1..])
  }

  /** Walking a path that ends at a leaf emits that leaf's symbol and then
      continues from the root as if nothing had been read. */
  lemma {:induction false} WalkPath(root: Tree, cur: Tree, path: BitString, x: Byte, rest: BitString)
    requires root.Node? && cur.Node?
    requires LeafAt(cur, path) == Some(x)
    ensures Walk(root, cur, path + rest)
         == Walked([x] + Walk(root, root, rest).output, Walk(root, root, rest).node)
    decreases |path|
  {
    assert (path + rest)[1..] == path[1..] + rest;
    var next := if path[0] then cur.right else cur.left;
    if next.Node? {
      WalkPath(root, next, path[1..], x, rest);
    }
  }

  /** Every code word leads from the root to its own symbol's leaf. */
  predicate LeadsToLeaves(root: Tree, codes: CodeTable)
  {
    forall x :: x in codes ==> LeafAt(root, codes[x]) == Some(x)
  }

  /** Walking the concatenated code words of `s` from the root emits exactly `s`
      and leaves the decoder at the root, ready for whatever follows. */
  lemma {:induction false} WalkEncoded(root: Tree, codes: CodeTable, s: seq<Byte>, rest: BitString)
    requires root.Node? && LeadsToLeaves(root, codes)
    requires forall i :: 0 <= i < |s| ==> s[i] in codes
    ensures Walk(root, root, Encode(codes, s) + rest)
         == Walked(s + Walk(root, root, rest).output, Walk(root, root, rest).node)
  {
    var after := Walk(root, root, rest);
    if |s| > 0 {
      var tail := Encode(codes, s[1..]) + rest;
      assert Encode(codes, s) + rest == codes[s[0]] + tail;
      assert Walk(root, root, tail) == Walked(s[1..] + after.output, after.node) by {
        WalkEncoded(root, codes, s[1..], rest);
      }
      assert Walk(root, root, codes[s[0]] + tail)
          == Walked([s[0]] + Walk(root, root, tail).output, Walk(root, root, tail).node) by {
        WalkPath(root, root, codes[s[0]], s[0], tail);
      }
      assert [s[0]] + (s[1..] + after.output) == s + after.output;
    } else {
      assert Encode(codes, s) + rest == rest;
      assert s + after.output == after.output;
    }
  }

  /** The complete decoding of a whole encoded stream ends back at the root. */
  lemma WalkEncodedExactly(root: Tree, s: seq<Byte>)
    requires root.Node?
    requires forall i :: 0 <= i < |s| ==> s[i] in Codes(root)
    ensures Walk(root, root, Encode(Codes(root), s)) == Walked(s, root)
  {
    WalkEncoded(root, Codes(root), s, []);
    assert Encode(Codes(root), s) + [] == Encode(Codes(root), s);
  }

  /** Every bit is 0. */
  predicate AllZero(bits: BitString)
  {
    forall i :: 0 <= i < |bits| ==> !bits[i]
  }

  /** Decodes exactly the bits of an encoded stream. A tree that is a single
      leaf reads one 0 bit per symbol; otherwise the tree walk must consume
      every bit and stop at the root, or the stream is malformed. */
  function DecodeBits(root: Tree, bits: BitString): (r: Result<seq<Byte>>)
    ensures r.Ok? && root.Leaf? ==> r.value == seq(|bits|, i => root.sym)
    ensures r.Ok? && root.Node? ==> Walk(root, root, bits) == Walked(r.value, root)
  {
    if root.Leaf? then
      if AllZero(bits) then Ok(seq(|bits|, i => root.sym)) else Err(MalformedContainer)
    else
      var w := Walk(root, root, bits);
      if w.node == root then Ok(w.output) else Err(MalformedContainer)
  }

  /** A lone symbol's code is a single 0, so its encoding is all zeros. */
  lemma {:induction false} EncodeLoneSymbol(x: Byte, w: nat, s: seq<Byte>)
    requires forall i :: 0 <= i < |s| ==> s[i] == x
    ensures Encode(Codes(Leaf(x, w)), s) == seq(|s|, i => false)
  {
    if |s| > 0 {
      EncodeLoneSymbol(x, w, s[1..]);
    }
  }

  /** Decoding inverts encoding for every tree and every input over its symbols. */
  lemma DecodeEncoded(root: Tree, s: seq<Byte>)
    requires forall i :: 0 <= i < |s| ==> s[i] in Codes(root)
    ensures DecodeBits(root, Encode(Codes(root), s)) == Ok(s)
  {
    if root.Leaf? {
      assert forall i :: 0 <= i < |s| ==> s[i] == root.sym;
      EncodeLoneSymbol(root.sym, root.w, s);
      assert seq(|s|, i => root.sym) == s;
    } else {
      WalkEncodedExactly(root, s);
    }
  }

  /** Each leaf's symbol has the path to that leaf as its code word. */
  ghost predicate CodesArePaths(root: Tree, codes: CodeTable)
  {
    forall path :: LeafAt(root, path).Some? ==>
      LeafAt(root, path).value in codes && codes[LeafAt(root, path).value] == path
  }

  /** When every symbol occurs once, generateCodes gives each leaf's symbol
      exactly the path to it. */
  lemma CodesAreLeafPaths(root: Tree)
    requires root.Node? && UniqueSyms(root)
    ensures CodesArePaths(root, Codes(root))
  {
    forall path | LeafAt(root, path).Some?
      ensures LeafAt(root, path).value in Codes(root) && Codes(root)[LeafAt(root, path).value] == path
    {
      CodeMapOfLeaf(root, [], path);
      assert [] + path == path;
    }
  }

  /** A walk from the node that the path `p` reaches, which ends back at the
      root, has read `p` and `bits` as nothing but the code words of the
      symbols it emitted. */
  lemma {:induction false} WalkInverts(root: Tree, codes: CodeTable, p: BitString, cur: Tree, bits: BitString)
    requires root.Node? && cur.Node? && CodesArePaths(root, codes)
    requires SubtreeAt(root, p) == Some(cur)
    requires Walk(root, cur, bits).node == root
    ensures var out := Walk(root, cur, bits).output;
            (forall i :: 0 <= i < |out| ==> out[i] in codes) && Encode(codes, out) == p + bits
    decreases |bits|
  {
    if |bits| == 0 {
      if |p| > 0 {
        SubtreeSmaller(root, p);
      }
      assert p + bits == [];
    } else {
      var next := if bits[0] then cur.right else cur.left;
      var p' := p + [bits[0]];
      SubtreeStep(root, p, bits[0]);
      assert p + bits == p' + bits[1..];
      if next.Leaf? {
        var rest := Walk(root, root, bits[1..]);
        assert next.sym in codes && codes[next.sym] == p' by {
          LeafAtSubtree(root, p');
        }
        WalkInverts(root, codes, [], root, bits[1..]);
        var out := [next.sym] + rest.output;
        assert out[1..] == rest.output;
      } else {
        WalkInverts(root, codes, p', next, bits[1..]);
      }
    }
  }

  /** On a tree where every symbol occurs once, the decoder accepts only
      encodings: whatever it decodes re-encodes to the very bits it read. */
  lemma DecodeOnlyEncoded(root: Tree, bits: BitString)
    requires UniqueSyms(root)
    requires DecodeBits(root, bits).Ok?
    ensures var s := DecodeBits(root, bits).value;
            (forall i :: 0 <= i < |s| ==> s[i] in Codes(root)) && Encode(Codes(root), s) == bits
  {
    var s := DecodeBits(root, bits).value;
    if root.Leaf? {
      EncodeLoneSymbol(root.sym, root.w, s);
      assert bits == seq(|s|, i => false);
    } else {
      CodesAreLeafPaths(root);
      WalkInverts(root, Codes(root), [], root, bits);
    }
  }

  /** The decoder and the code table agree exactly: on a tree where every
      symbol occurs once, decoding yields `s` if and only if the bits are the
      encoding of `s`. */
  lemma DecodeIffEncoded(root: Tree, bits: BitString, s: seq<Byte>)
    requires UniqueSyms(root)
    ensures DecodeBits(root, bits) == Ok(s)
        <==> (forall i :: 0 <= i < |s| ==> s[i] in Codes(root)) && bits == Encode(Codes(root), s)
  {
    if DecodeBits(root, bits) == Ok(s) {
      DecodeOnlyEncoded(root, bits);
    }
    if (forall i :: 0 <= i < |s| ==> s[i] in Codes(root)) && bits == Encode(Codes(root), s) {
      DecodeEncoded(root, s);
    }
  }
}

=== FILE: frequency.dfy ===
/** The frequency model: how many times each byte value occurs in the input,
    and sums over a frequency table taken in ascending symbol order. */
module Frequency {
  import opened Bits

  /** Symbol -> count. Only symbols that occur are keys. */
  type Table = map<Byte, nat>

  /** The counting loop at file_compression_tool.cpp:70-74: one `freqMap[ch]++`
      per input byte, taken in input order. */
  function Frequencies(input: seq<Byte>): (table: Table)
    ensures forall x: Byte :: x in table <==> x in input
    ensures forall x :: x in table ==> table[x] == multiset(input)[x]
  {
    if |input| == 0 then map[]
    else
      var init := input[..|input| - 1];
      var x := input[|input| - 1];
      assert input == init + [x];
      var table := Frequencies(init);
      table[x := if x in table then table[x] + 1 else 1]
  }

  /** The table is empty exactly when the input is. */
  lemma FrequenciesEmpty(input: seq<Byte>)
    ensures |Frequencies(input)| == 0 <==> |input| == 0
  {
    if |input| > 0 {
      assert input[0] in Frequencies(input);
    }
  }

  /** The count stored for x, zero when x is absent. */
  function CountOf(table: Table, x: Byte): nat
  {
    if x in table then table[x] else 0
  }

  /** Reading one more byte increments its count. */
  lemma FrequenciesLast(input: seq<Byte>)
    requires |input| > 0
    ensures var init, x := input[..|input| - 1], input[|input| - 1];
            Frequencies(input) == Frequencies(init)[x := CountOf(Frequencies(init), x) + 1]
  {
  }

  /** Sum of the counts of the symbols lo..255. */
  function TotalFrom(table: Table, lo: int): nat
    requires 0 <= lo <= 256
    decreases 256 - lo
  {
    if lo == 256 then 0 else CountOf(table, lo) + TotalFrom(table, lo + 1)
  }

  /** Sum of all counts in a table. */
  function Total(table: Table): nat
  {
    TotalFrom(table, 0)
  }

  /** Incrementing one symbol's count adds one to every sum that covers that symbol. */
  lemma {:induction false} TotalFromIncrement(table: Table, x: Byte, lo: int)
    requires 0 <= lo <= 256
    ensures TotalFrom(table[x := CountOf(table, x) + 1], lo)
         == TotalFrom(table, lo) + (if lo <= x then 1 else 0)
    decreases 256 - lo
  {
    if lo < 256 {
      TotalFromIncrement(table, x, lo + 1);
    }
  }

  lemma {:induction false} TotalFromEmpty(lo: int)
    requires 0 <= lo <= 256
    ensures TotalFrom(map[], lo) == 0
    decreases 256 - lo
  {
    if lo < 256 {
      TotalFromEmpty(lo + 1);
    }
  }

  /** The counts of the frequency table add up to the input length. */
  lemma {:induction false} TotalOfFrequencies(input: seq<Byte>)
    ensures Total(Frequencies(input)) == |input|
  {
    if |input| == 0 {
      TotalFromEmpty(0);
    } else {
      var init := input[..|input| - 1];
      var x := input[|input| - 1];
      var table := Frequencies(init);
      assert Frequencies(input) == table[x := CountOf(table, x) + 1] by {
        FrequenciesLast(input);
      }
      assert Total(table) == |init| by {
        TotalOfFrequencies(init);
      }
      TotalFromIncrement(table, x, 0);
    }
  }

  /** The table's symbols in ascending order, starting at lo. This fixes one
      iteration order for a table whose own order carries no meaning. */
  function AscendingKeys(table: Table, lo: int): (keys: seq<Byte>)
    requires 0 <= lo <= 256
    ensures forall x: Byte :: x in keys <==> x in table && lo <= x
    ensures forall i, j :: 0 <= i < j < |keys| ==> keys[i] < keys[j]
    ensures forall i :: 0 <= i < |keys| ==> lo <= keys[i]
    decreases 256 - lo
  {
    if lo == 256 then []
    else if lo in table then [lo] + AscendingKeys(table, lo + 1)
    else AscendingKeys(table, lo + 1)
  }

  /** Sum of the counts of the symbols listed in order. */
  function SumOver(table: Table, order: seq<Byte>): nat
    requires forall i :: 0 <= i < |order| ==> order[i] in table
  {
    if |order| == 0 then 0 else table[order[0]] + SumOver(table, order[1..])
  }

  lemma {:induction false} SumOverAscending(table: Table, lo: int)
    requires 0 <= lo <= 256
    ensures SumOver(table, AscendingKeys(table, lo)) == TotalFrom(table, lo)
    decreases 256 - lo
  {
    if lo < 256 {
      SumOverAscending(table, lo + 1);
    }
  }

  /** Every key of the table occurs once in its ascending enumeration. */
  lemma {:induction false} AscendingKeysOnce(table: Table, lo: int, x: Byte)
    requires 0 <= lo <= 256
    ensures multiset(AscendingKeys(table, lo))[x] == (if x in table && lo <= x then 1 else 0)
    decreases 256 - lo
  {
    if lo < 256 {
      AscendingKeysOnce(table, lo + 1, x);
    }
  }

  /** The ascending enumeration lists exactly the table's symbols, each once. */
  lemma AscendingKeysMultiset(table: Table)
    ensures multiset(AscendingKeys(table, 0)) == multiset(table.Keys)
  {
    forall y: Byte
      ensures multiset(AscendingKeys(table, 0))[y] == multiset(table.Keys)[y]
    {
      AscendingKeysOnce(table, 0, y);
    }
  }
}

=== FILE: header.dfy ===
/** The container header of file_compression_tool.cpp:83-86: one record per
    table entry, the raw symbol byte followed by its count in decimal and a
    newline, then the terminator "END\n". The reader here is the inverse the
    writer calls for; the reader the source actually uses
    (file_compression_tool.cpp:179-183) is modelled in module AsWritten. */
module Header {
  import opened Bits
  import opened Frequency
  import opened Decimal
  import opened Results

  /** "END\n". */
  const EndMarker: seq<Byte> := [69, 78, 68, 10]

  /** One record as file_compression_tool.cpp:84 writes it: the symbol's raw
      byte, its count in decimal, and a newline. */
  function Record(table: Table, x: Byte): (rec: seq<Byte>)
    requires x in table
    ensures |rec| >= 3 && rec[0] == x && IsDigit(rec[1])
  {
    [x] + Numeral(table[x]) + [Newline]
  }

  /** The records of the listed symbols, in the listed order. */
  function Records(table: Table, order: seq<Byte>): (rs: seq<Byte>)
    requires forall i :: 0 <= i < |order| ==> order[i] in table
    ensures |rs| >= 3 * |order|
  {
    if |order| == 0 then [] else Record(table, order[0]) + Records(table, order[1..])
  }

  /** The header written for a table enumerated in the given order. */
  function WriteHeader(table: Table, order: seq<Byte>): (h: seq<Byte>)
    requires forall i :: 0 <= i < |order| ==> order[i] in table
    ensures |h| >= |EndMarker| + 3 * |order| && h[|h| - |EndMarker|..] == EndMarker
  {
    Records(table, order) + EndMarker
  }

  /** Reads records into acc until the terminator; yields the table and the
      bytes after the terminator. A later record for the same symbol
      overwrites an earlier one, as the map assignment at
      file_compression_tool.cpp:183 does. */
  function ReadRecords(s: seq<Byte>, acc: Table): (r: Result<(Table, seq<Byte>)>)
    ensures r.Ok? ==> acc.Keys <= r.value.0.Keys
    ensures r.Ok? ==> |r.value.1| + |EndMarker| <= |s|
    ensures r.Err? ==> r.error == MalformedContainer
    decreases |s|
  {
    if |s| >= |EndMarker| && s[..|EndMarker|] == EndMarker then Ok((acc, s[|EndMarker|..]))
    else if |s| == 0 then Err(MalformedContainer)
    else
      match ReadNumberLine(s[1..])
      case Err(e) => Err(e)
      case Ok((n, rest)) =>
        ReadRecords(rest, acc[s[0] := n])
  }

  /** Reads a whole header, starting from an empty table; what is left is
      everything after the first terminator the records lead to. */
  function ReadHeader(s: seq<Byte>): (r: Result<(Table, seq<Byte>)>)
    ensures r.Err? ==> r.error == MalformedContainer
    ensures r.Ok? ==> |r.value.1| + |EndMarker| <= |s| && s[|s| - |r.value.1| - |EndMarker|..] == EndMarker + r.value.1
  {
    var r := ReadRecords(s, map[]);
    if r.Ok? then ReadRecordsRest(s, map[]); r else r
  }

  /** The entries of the table for the listed symbols. */
  function Restrict(table: Table, order: seq<Byte>): (m: Table)
    ensures forall x :: x in m <==> x in order && x in table
    ensures forall x :: x in m ==> m[x] == table[x]
  {
    map x | x in order && x in table :: table[x]
  }

  lemma RestrictCons(table: Table, order: seq<Byte>, acc: Table)
    requires |order| > 0 && order[0] in table
    ensures acc[order[0] := table[order[0]]] + Restrict(table, order[1..]) == acc + Restrict(table, order)
  {
    assert forall x :: x in order <==> x == order[0] || x in order[1..];
  }

  /** A record is not mistaken for the terminator: its second byte is a digit, not 'N'. */
  lemma RecordIsNotEnd(table: Table, x: Byte, tail: seq<Byte>)
    requires x in table
    ensures var s := Record(table, x) + tail; |s| < |EndMarker| || s[..|EndMarker|] != EndMarker
  {
    assert (Record(table, x) + tail)[1] == Record(table, x)[1];
  }

  /** Reading written records back applies each of them to acc and stops
      exactly after the terminator. */
  lemma {:induction false} ReadRecordsOf(table: Table, order: seq<Byte>, acc: Table, rest: seq<Byte>)
    requires forall i :: 0 <= i < |order| ==> order[i] in table
    ensures ReadRecords(Records(table, order) + EndMarker + rest, acc) == Ok((acc + Restrict(table, order), rest))
  {
    var s := Records(table, order) + EndMarker + rest;
    if |order| == 0 {
      assert s == EndMarker + rest;
      assert s[..|EndMarker|] == EndMarker;
      assert s[|EndMarker|..] == rest;
      assert acc + Restrict(table, order) == acc;
    } else {
      var x := order[0];
      var tail := Records(table, order[1..]) + EndMarker + rest;
      assert s == Record(table, x) + tail;
      RecordIsNotEnd(table, x, tail);
      assert s[1..] == Numeral(table[x]) + [Newline] + tail;
      ReadNumberLineOf(table[x], tail);
      ReadRecordsOf(table, order[1..], acc[x := table[x]], rest);
      RestrictCons(table, order, acc);
    }
  }

  /** The header reader inverts the writer for every enumeration order of
      the table and leaves everything after the terminator as payload. */
  lemma ReadHeaderOf(table: Table, order: seq<Byte>, rest: seq<Byte>)
    requires forall x :: x in order <==> x in table
    ensures ReadHeader(WriteHeader(table, order) + rest) == Ok((table, rest))
  {
    ReadRecordsOf(table, order, map[], rest);
    assert map[] + Restrict(table, order) == table;
  }

  /** What the record reader leaves over is the tail of its input, with
      the terminator right in front of it. */
  lemma {:induction false} ReadRecordsRest(s: seq<Byte>, acc: Table)
    requires ReadRecords(s, acc).Ok?
    ensures var rest := ReadRecords(s, acc).value.1;
            |rest| + |EndMarker| <= |s| && s[|s| - |rest| - |EndMarker|..] == EndMarker + rest
    decreases |s|
  {
    if |s| >= |EndMarker| && s[..|EndMarker|] == EndMarker {
      assert s == s[..|EndMarker|] + s[|EndMarker|..];
    } else {
      var (n, rest) := ReadNumberLine(s[1..]).value;
      var acc' := acc[s[0] := n];
      assert ReadRecords(s, acc) == ReadRecords(rest, acc');
      var k := |s| - |rest|;
      assert s[k..] == rest by {
        assert s[1..][|s[1..]| - |rest|..] == s[k..];
      }
      ReadRecordsRest(rest, acc');
      var j := |rest| - |ReadRecords(rest, acc').value.1| - |EndMarker|;
      assert s[k..][j..] == s[k + j..];
    }
  }

  /** pat appears somewhere in s as a contiguous run. */
  predicate Occurs(s: seq<Byte>, pat: seq<Byte>)
    decreases |s|
  {
    |pat| <= |s| && (s[..|pat|] == pat || Occurs(s[1..], pat))
  }

  /** A run that occurs in a suffix occurs in the whole. */
  lemma {:induction false} OccursInSuffix(s: seq<Byte>, pat: seq<Byte>, k: nat)
    requires k <= |s| && Occurs(s[k..], pat)
    ensures Occurs(s, pat)
    decreases k
  {
    if k > 0 {
      assert s[1..][k - 1..] == s[k..];
      OccursInSuffix(s[1..], pat, k - 1);
    }
  }

  /** A header with no terminator anywhere in it is rejected, whatever
      records precede the end of the file: the reader never runs off the
      end into a table. */
  lemma {:induction false} NoTerminatorRejected(s: seq<Byte>, acc: Table)
    requires !Occurs(s, EndMarker)
    ensures ReadRecords(s, acc) == Err(MalformedContainer)
    decreases |s|
  {
    if |s| > 0 && (|s| < |EndMarker| || s[..|EndMarker|] != EndMarker) {
      match ReadNumberLine(s[1..])
      case Err(e) =>
      case Ok((n, rest)) =>
        var k := |s| - |rest|;
        assert s[k..] == rest;
        if Occurs(rest, EndMarker) {
          OccursInSuffix(s, EndMarker, k);
        }
        NoTerminatorRejected(rest, acc[s[0] := n]);
    }
  }
}

=== FILE: results.dfy ===
/** Failure-compatible results for the codec: every way decompression can
    reject its input is an explicit error value, never a crash. */
module Results {

  /** Why a container could not be decoded. */
  datatype CodecError =
    | MalformedContainer  // terminator missing, record unparsable, bit count inconsistent with the payload
    | EmptyAlphabet       // an empty frequency table in front of a non-empty payload

  datatype Option<+T> = None | Some(value: T)

  datatype Result<+T> = Ok(value: T) | Err(error: CodecError) {

    predicate IsFailure() {
      Err?
    }

    function PropagateFailure<U>(): Result<U>
      requires Err?
    {
      Err(error)
    }

    function Extract(): T
      requires Ok?
    {
      value
    }
  }
}

=== FILE: tree.dfy ===
/** The code tree builder of file_compression_tool.cpp:24-46. The priority
    queue is a strictly sorted sequence of entries. The order is weight first,
    then a rank: a leaf's rank is its symbol and a merged node's rank is 256
    plus its creation number. This breaks every tie, so equal tables give
    equal trees whatever order the table is enumerated in. */
module HuffmanTree {
  import opened Bits
  import opened Frequency

  /** A code tree; every node carries the total count of the leaves below it. */
  datatype Tree = Leaf(sym: Byte, w: nat) | Node(left: Tree, right: Tree, w: nat)

  /** The symbols at the leaves, with multiplicity. */
  function Syms(t: Tree): multiset<Byte>
  {
    match t
    case Leaf(x, _) => multiset{x}
    case Node(l, r, _) => Syms(l) + Syms(r)
  }

  /** The number of internal nodes, that is, of merges that built the tree. */
  function Internals(t: Tree): nat
  {
    match t
    case Leaf(_, _) => 0
    case Node(l, r, _) => 1 + Internals(l) + Internals(r)
  }

  /** Leaves carry their table count and every internal weight is the sum of its children's. */
  predicate Consistent(t: Tree, table: Table)
  {
    match t
    case Leaf(x, w) => x in table && w == table[x]
    case Node(l, r, w) => w == l.w + r.w && Consistent(l, table) && Consistent(r, table)
  }

  /** Every symbol occurs at most once among the leaves. */
  predicate UniqueSyms(t: Tree)
  {
    forall x :: x in Syms(t) ==> Syms(t)[x] == 1
  }

  /** A binary tree with n leaves has n - 1 internal nodes. */
  lemma {:induction false} InternalsCount(t: Tree)
    ensures Internals(t) + 1 == |Syms(t)|
  {
    match t
    case Leaf(_, _) =>
    case Node(l, r, _) =>
      InternalsCount(l);
      InternalsCount(r);
  }

  /** A queue entry: a candidate tree and its tie-break rank. */
  datatype Entry = Entry(tree: Tree, rank: nat)

  /** Ranks of merged nodes start here, above every symbol. */
  const FirstMergeRank: nat := 256

  /** The strict queue order: lighter first, then lower rank. */
  predicate Before(a: Entry, b: Entry)
  {
    a.tree.w < b.tree.w || (a.tree.w == b.tree.w && a.rank < b.rank)
  }

  /** The queue order refines Compare: it never puts a heavier entry first,
      always puts a lighter one first, and is a strict total order on
      (weight, rank) pairs: asymmetric, transitive, and it orders any two
      entries that differ in weight or rank. */
  lemma BeforeRefinesCompare(a: Entry, b: Entry, c: Entry)
    ensures Before(a, b) ==> a.tree.w <= b.tree.w
    ensures a.tree.w < b.tree.w ==> Before(a, b)
    ensures !(Before(a, b) && Before(b, a))
    ensures Before(a, b) && Before(b, c) ==> Before(a, c)
    ensures (a.tree.w != b.tree.w || a.rank != b.rank) ==> Before(a, b) || Before(b, a)
  {
  }

  predicate Sorted(q: seq<Entry>)
  {
    forall i, j :: 0 <= i < j < |q| ==> Before(q[i], q[j])
  }

  predicate RanksBelow(q: seq<Entry>, bound: nat)
  {
    forall i :: 0 <= i < |q| ==> q[i].rank < bound
  }

  predicate RankFresh(q: seq<Entry>, rank: nat)
  {
    forall i :: 0 <= i < |q| ==> q[i].rank != rank
  }

  function QueueWeight(q: seq<Entry>): nat
  {
    if |q| == 0 then 0 else q[0].tree.w + QueueWeight(q[1..])
  }

  function QueueSyms(q: seq<Entry>): multiset<Byte>
  {
    if |q| == 0 then multiset{} else Syms(q[0].tree) + QueueSyms(q[1..])
  }

  /** `minHeap.push`: puts an entry in its place; a queue with the entry added. */
  function Insert(q: seq<Entry>, e: Entry): (r: seq<Entry>)
    ensures |r| == |q| + 1
    ensures multiset(r) == multiset(q) + multiset{e}
  {
    if |q| == 0 || Before(e, q[0]) then [e] + q
    else
      assert q == [q[0]] + q[1..];
      [q[0]] + Insert(q[1..], e)
  }

  lemma SortedTail(q: seq<Entry>, rank: nat)
    requires |q| > 0 && Sorted(q) && RankFresh(q, rank)
    ensures Sorted(q[1..]) && RankFresh(q[1..], rank)
  {
    assert forall i :: 0 <= i < |q[1..]| ==> q[1..][i] == q[i + 1];
  }

  /** Inserting an entry whose rank is fresh keeps the queue strictly sorted. */
  lemma {:induction false} InsertSorted(q: seq<Entry>, e: Entry)
    requires Sorted(q) && RankFresh(q, e.rank)
    ensures Sorted(Insert(q, e))
  {
    if |q| > 0 && !Before(e, q[0]) {
      var rest := Insert(q[1..], e);
      SortedTail(q, e.rank);
      InsertSorted(q[1..], e);
      forall j | 0 <= j < |rest|
        ensures Before(q[0], rest[j])
      {
        assert rest[j] in multiset(rest);
        if rest[j] != e {
          assert rest[j] in multiset(q[1..]);
          var k :| 0 <= k < |q[1..]| && q[1..][k] == rest[j];
          assert q[1..][k] == q[k + 1];
        }
      }
      var r := Insert(q, e);
      assert r == [q[0]] + rest;
      forall i, j | 0 <= i < j < |r|
        ensures Before(r[i], r[j])
      {
        assert r[j] == rest[j - 1];
        if i > 0 {
          assert r[i] == rest[i - 1];
        }
      }
    }
  }

  /** Inserting adds the entry's weight and leaves to the queue's totals. */
  lemma {:induction false} InsertTotals(q: seq<Entry>, e: Entry)
    ensures QueueWeight(Insert(q, e)) == QueueWeight(q) + e.tree.w
    ensures QueueSyms(Insert(q, e)) == QueueSyms(q) + Syms(e.tree)
  {
    if |q| > 0 && !Before(e, q[0]) {
      InsertTotals(q[1..], e);
    }
  }

  /** The internal node of file_compression_tool.cpp:39-41: first extracted on the left. */
  function Merged(a: Entry, b: Entry, rank: nat): Entry
  {
    Entry(Node(a.tree, b.tree, a.tree.w + b.tree.w), rank)
  }

  /** One iteration of the loop at file_compression_tool.cpp:36-43: the two
      front entries leave the queue and their merge goes back in. */
  function Merge(q: seq<Entry>, next: nat): (r: seq<Entry>)
    requires |q| >= 2
    ensures |r| == |q| - 1
    ensures multiset(r) == multiset(q[2..]) + multiset{Merged(q[0], q[1], next)}
  {
    Insert(q[2..], Merged(q[0], q[1], next))
  }

  /** A merge keeps the queue strictly sorted and its ranks below the next fresh one. */
  lemma MergeSorted(q: seq<Entry>, next: nat)
    requires |q| >= 2 && Sorted(q) && RanksBelow(q, next)
    ensures Sorted(Merge(q, next)) && RanksBelow(Merge(q, next), next + 1)
  {
    var m := Merged(q[0], q[1], next);
    assert Sorted(q[2..]) && RankFresh(q[2..], next) by {
      assert forall i :: 0 <= i < |q[2..]| ==> q[2..][i] == q[i + 2];
    }
    InsertSorted(q[2..], m);
    var r := Merge(q, next);
    forall i | 0 <= i < |r|
      ensures r[i].rank < next + 1
    {
      assert r[i] in multiset(r);
      if r[i] != m {
        var k :| 0 <= k < |q[2..]| && q[2..][k] == r[i];
        assert q[2..][k] == q[k + 2];
      }
    }
  }

  /** On a sorted queue the two extracted entries weigh no more than any
      entry left behind: each merge combines two minimum-weight nodes, the
      first extracted on the left. */
  lemma MergeTakesLightest(q: seq<Entry>, next: nat)
    requires |q| >= 2 && Sorted(q) && RanksBelow(q, next)
    ensures forall i :: 0 <= i < |q| - 1 && Merge(q, next)[i].rank != next ==>
              q[0].tree.w <= q[1].tree.w <= Merge(q, next)[i].tree.w
  {
    var r := Merge(q, next);
    forall i | 0 <= i < |r| && r[i].rank != next
      ensures q[0].tree.w <= q[1].tree.w <= r[i].tree.w
    {
      assert r[i] in multiset(r);
      var k :| 0 <= k < |q[2..]| && q[2..][k] == r[i];
      assert q[2..][k] == q[k + 2];
      assert Before(q[1], q[k + 2]);
      assert Before(q[0], q[1]);
    }
  }

  lemma QueueSplit(q: seq<Entry>)
    requires |q| >= 2
    ensures QueueWeight(q) == q[0].tree.w + q[1].tree.w + QueueWeight(q[2..])
    ensures QueueSyms(q) == Syms(q[0].tree) + Syms(q[1].tree) + QueueSyms(q[2..])
  {
    assert q[1..][1..] == q[2..];
  }

  /** Merging keeps the queue's total weight. */
  lemma MergeWeight(q: seq<Entry>, next: nat)
    requires |q| >= 2
    ensures QueueWeight(Merge(q, next)) == QueueWeight(q)
  {
    QueueSplit(q);
    InsertTotals(q[2..], Merged(q[0], q[1], next));
  }

  /** Merging keeps the queue's leaves. */
  lemma MergeSyms(q: seq<Entry>, next: nat)
    requires |q| >= 2
    ensures QueueSyms(Merge(q, next)) == QueueSyms(q)
  {
    QueueSplit(q);
    InsertTotals(q[2..], Merged(q[0], q[1], next));
  }

  /** The merge loop run to the end: the one remaining node is the root. */
  function Build(q: seq<Entry>, next: nat): (root: Tree)
    requires |q| >= 1
    ensures |q| >= 2 ==> root.Node?
    decreases |q|
  {
    if |q| == 1 then q[0].tree else Build(Merge(q, next), next + 1)
  }

  /** The root weighs as much as the whole queue. */
  lemma {:induction false} BuildWeight(q: seq<Entry>, next: nat)
    requires |q| >= 1
    ensures Build(q, next).w == QueueWeight(q)
    decreases |q|
  {
    if |q| > 1 {
      MergeWeight(q, next);
      BuildWeight(Merge(q, next), next + 1);
    } else {
      assert q[1..] == [];
    }
  }

  /** The root's leaves are the leaves of the whole queue. */
  lemma {:induction false} BuildSyms(q: seq<Entry>, next: nat)
    requires |q| >= 1
    ensures Syms(Build(q, next)) == QueueSyms(q)
    decreases |q|
  {
    if |q| > 1 {
      MergeSyms(q, next);
      BuildSyms(Merge(q, next), next + 1);
    } else {
      assert q[1..] == [];
    }
  }

  /** All trees in the queue are consistent with the table. */
  predicate AllConsistent(q: seq<Entry>, table: Table)
  {
    forall i :: 0 <= i < |q| ==> Consistent(q[i].tree, table)
  }

  /** A merge of consistent trees is consistent, so merging keeps the queue consistent. */
  lemma MergeConsistent(q: seq<Entry>, next: nat, table: Table)
    requires |q| >= 2 && AllConsistent(q, table)
    ensures AllConsistent(Merge(q, next), table)
  {
    var r := Merge(q, next);
    forall i | 0 <= i < |r|
      ensures Consistent(r[i].tree, table)
    {
      assert r[i] in multiset(r);
      if r[i] != Merged(q[0], q[1], next) {
        var k :| 0 <= k < |q[2..]| && q[2..][k] == r[i];
        assert q[k + 2] == r[i];
      }
    }
  }

  /** The built tree is consistent with the table when every queued tree is. */
  lemma {:induction false} BuildConsistent(q: seq<Entry>, next: nat, table: Table)
    requires |q| >= 1 && AllConsistent(q, table)
    ensures Consistent(Build(q, next), table)
    decreases |q|
  {
    if |q| > 1 {
      MergeConsistent(q, next, table);
      BuildConsistent(Merge(q, next), next + 1, table);
    } else {
      assert Consistent(q[0].tree, table);
    }
  }

  /** No symbol is listed twice. */
  predicate Distinct(order: seq<Byte>)
  {
    |order| == 0 || (order[0] !in order[1..] && Distinct(order[1..]))
  }

  /** A strictly increasing enumeration lists no symbol twice. */
  lemma {:induction false} IncreasingIsDistinct(order: seq<Byte>)
    requires forall i, j :: 0 <= i < j < |order| ==> order[i] < order[j]
    ensures Distinct(order)
  {
    if |order| > 0 {
      IncreasingIsDistinct(order[1..]);
    }
  }

  /** A symbol's initial queue entry. */
  function LeafEntry(table: Table, x: Byte): Entry
    requires x in table
  {
    Entry(Leaf(x, table[x]), x)
  }

  /** The heap after the loop at file_compression_tool.cpp:32-34 pushed one
      leaf per listed symbol, from the last listed to the first. The order
      of the pushes does not matter (IterationOrderIrrelevant). */
  function QueueOf(table: Table, order: seq<Byte>): (q: seq<Entry>)
    requires forall i :: 0 <= i < |order| ==> order[i] in table
    ensures |q| == |order|
  {
    if |order| == 0 then [] else Insert(QueueOf(table, order[1..]), LeafEntry(table, order[0]))
  }

  /** The initial queue holds exactly the leaf entries of the enumerated symbols. */
  lemma {:induction false} QueueOfLeaves(table: Table, order: seq<Byte>)
    requires forall i :: 0 <= i < |order| ==> order[i] in table
    ensures forall i :: 0 <= i < |order| ==> LeafEntry(table, order[i]) in QueueOf(table, order)
    ensures forall e :: e in QueueOf(table, order) ==> e.rank in order && e == LeafEntry(table, e.rank)
  {
    if |order| > 0 {
      QueueOfLeaves(table, order[1..]);
      var rest := QueueOf(table, order[1..]);
      var q := QueueOf(table, order);
      forall i | 0 <= i < |order|
        ensures LeafEntry(table, order[i]) in q
      {
        if i > 0 {
          assert order[i] == order[1..][i - 1];
          assert LeafEntry(table, order[i]) in multiset(rest);
        }
        assert LeafEntry(table, order[i]) in multiset(q);
      }
      forall e | e in q
        ensures e.rank in order && e == LeafEntry(table, e.rank)
      {
        assert e in multiset(q);
        if e != LeafEntry(table, order[0]) {
          assert e in multiset(rest);
        }
      }
    }
  }

  /** Pushing distinct symbols yields a strictly sorted queue of symbol ranks. */
  lemma {:induction false} QueueOfSorted(table: Table, order: seq<Byte>)
    requires forall i :: 0 <= i < |order| ==> order[i] in table
    requires Distinct(order)
    ensures Sorted(QueueOf(table, order)) && RanksBelow(QueueOf(table, order), FirstMergeRank)
  {
    var q := QueueOf(table, order);
    if |order| > 0 {
      var rest := QueueOf(table, order[1..]);
      QueueOfSorted(table, order[1..]);
      QueueOfLeaves(table, order[1..]);
      assert RankFresh(rest, order[0]) by {
        forall i | 0 <= i < |rest|
          ensures rest[i].rank != order[0]
        {
          assert rest[i] in rest;
        }
      }
      InsertSorted(rest, LeafEntry(table, order[0]));
    }
    QueueOfLeaves(table, order);
    forall i | 0 <= i < |q|
      ensures q[i].rank < FirstMergeRank
    {
      assert q[i] in q;
    }
  }

  /** The initial queue's weight is the sum of the enumerated counts. */
  lemma {:induction false} QueueOfWeight(table: Table, order: seq<Byte>)
    requires forall i :: 0 <= i < |order| ==> order[i] in table
    ensures QueueWeight(QueueOf(table, order)) == SumOver(table, order)
  {
    if |order| > 0 {
      QueueOfWeight(table, order[1..]);
      InsertTotals(QueueOf(table, order[1..]), LeafEntry(table, order[0]));
    }
  }

  lemma MultisetCons(s: seq<Byte>)
    requires |s| > 0
    ensures multiset(s) == multiset(s[1..]) + multiset{s[0]}
  {
    assert s == [s[0]] + s[1..];
  }

  /** The initial queue's leaves are the enumerated symbols. */
  lemma {:induction false} QueueOfSyms(table: Table, order: seq<Byte>)
    requires forall i :: 0 <= i < |order| ==> order[i] in table
    ensures QueueSyms(QueueOf(table, order)) == multiset(order)
  {
    if |order| > 0 {
      QueueOfSyms(table, order[1..]);
      InsertTotals(QueueOf(table, order[1..]), LeafEntry(table, order[0]));
      MultisetCons(order);
    }
  }

  lemma FirstIsMember(s: seq<Entry>)
    ensures |s| > 0 ==> s[0] in s
  {
  }

  /** A strictly sorted queue is determined by the set of its entries. */
  lemma {:induction false} SortedUnique(a: seq<Entry>, b: seq<Entry>)
    requires Sorted(a) && Sorted(b)
    requires forall e :: e in a <==> e in b
    ensures a == b
    decreases |a|
  {
    FirstIsMember(a);
    FirstIsMember(b);
    if |a| > 0 && |b| > 0 {
      var i :| 0 <= i < |a| && a[i] == b[0];
      var j :| 0 <= j < |b| && b[j] == a[0];
      assert i == 0 || j == 0;
      assert a[0] == b[0];
      forall e
        ensures e in a[1..] <==> e in b[1..]
      {
        if e in a[1..] {
          assert e != a[0];
          assert e in b;
        }
        if e in b[1..] {
          assert e != b[0];
          assert e in a;
        }
      }
      SortedUnique(a[1..], b[1..]);
      assert a == [a[0]] + a[1..] && b == [b[0]] + b[1..];
    }
  }

  /** `order` lists every symbol of the table exactly once. */
  ghost predicate Enumerates(table: Table, order: seq<Byte>)
  {
    && (forall x :: x in order <==> x in table)
    && Distinct(order)
  }

  /** The queue does not depend on the order in which the table is enumerated. */
  lemma IterationOrderIrrelevant(table: Table, order1: seq<Byte>, order2: seq<Byte>)
    requires Enumerates(table, order1) && Enumerates(table, order2)
    ensures QueueOf(table, order1) == QueueOf(table, order2)
  {
    var q1, q2 := QueueOf(table, order1), QueueOf(table, order2);
    QueueOfLeaves(table, order1);
    QueueOfLeaves(table, order2);
    forall e
      ensures e in q1 <==> e in q2
    {
      if e in q1 {
        var k :| 0 <= k < |order2| && order2[k] == e.rank;
        assert LeafEntry(table, order2[k]) in q2;
      }
      if e in q2 {
        var k :| 0 <= k < |order1| && order1[k] == e.rank;
        assert LeafEntry(table, order1[k]) in q1;
      }
    }
    QueueOfSorted(table, order1);
    QueueOfSorted(table, order2);
    SortedUnique(q1, q2);
  }

  /** The queue buildHuffmanTree starts from: one leaf per symbol, in ascending symbol order. */
  function InitialQueue(table: Table): (q: seq<Entry>)
    requires |table| > 0
    ensures |q| == |table|
  {
    var order := AscendingKeys(table, 0);
    AscendingKeysMultiset(table);
    assert |multiset(order)| == |multiset(table.Keys)|;
    QueueOf(table, order)
  }

  /** The initial queue is strictly sorted, with every rank a symbol. */
  lemma InitialQueueSorted(table: Table)
    requires |table| > 0
    ensures Sorted(InitialQueue(table)) && RanksBelow(InitialQueue(table), FirstMergeRank)
  {
    var order := AscendingKeys(table, 0);
    IncreasingIsDistinct(order);
    QueueOfSorted(table, order);
  }

  /** The initial queue weighs as much as all the table's counts together. */
  lemma InitialQueueWeight(table: Table)
    requires |table| > 0
    ensures QueueWeight(InitialQueue(table)) == Total(table)
  {
    var order := AscendingKeys(table, 0);
    SumOverAscending(table, 0);
    QueueOfWeight(table, order);
  }

  /** The initial queue's leaves are the table's symbols, each once. */
  lemma InitialQueueSyms(table: Table)
    requires |table| > 0
    ensures QueueSyms(InitialQueue(table)) == multiset(table.Keys)
  {
    var order := AscendingKeys(table, 0);
    QueueOfSyms(table, order);
    AscendingKeysMultiset(table);
  }

  /** Every initial entry is a leaf carrying its table count. */
  lemma InitialQueueConsistent(table: Table)
    requires |table| > 0
    ensures AllConsistent(InitialQueue(table), table)
  {
    var order := AscendingKeys(table, 0);
    var q := InitialQueue(table);
    QueueOfLeaves(table, order);
    forall i | 0 <= i < |q|
      ensures Consistent(q[i].tree, table)
    {
      assert q[i] in q;
    }
  }

  /** The built tree holds each symbol of the table at exactly one leaf. */
  lemma BuildTreeUniqueSyms(table: Table)
    requires |table| > 0
    ensures UniqueSyms(BuildTree(table))
  {
    var root := BuildTree(table);
    forall x | x in Syms(root)
      ensures Syms(root)[x] == 1
    {
      assert Syms(root)[x] == multiset(table.Keys)[x];
    }
  }

  /** buildHuffmanTree (file_compression_tool.cpp:30-46) for a non-empty table. */
  function BuildTree(table: Table): (root: Tree)
    requires |table| > 0
    ensures Syms(root) == multiset(table.Keys)
    ensures root.w == Total(table)
    ensures Consistent(root, table)
    ensures Internals(root) == |table| - 1
  {
    var q := InitialQueue(table);
    InitialQueueWeight(table);
    InitialQueueSyms(table);
    InitialQueueConsistent(table);
    BuildConsistent(q, FirstMergeRank, table);
    BuildWeight(q, FirstMergeRank);
    BuildSyms(q, FirstMergeRank);
    InternalsCount(Build(q, FirstMergeRank));
    Build(q, FirstMergeRank)
  }
}
